=== FILE: README.md ===
# LOONE daily regulation core in Dafny

LOONE simulates Lake Okeechobee one day at a time. Each day it decides the lake's
releases:
- the LOSA water supply;
- the regulatory discharges at S-77 (west) and S-308 (east);
- the southward releases;
- the Caloosahatchee releases shaped by the adaptive protocol.

It then updates the lake's storage and stage. This project models the deterministic
core of that simulator and proves properties of it.

The core consists of:

- **Adaptive-protocol rules** (`ApRules`, `ap_rules.dfy`): every rule of `AP_FNs.py`.
  These are the small decisions that gate the S-77 baseflow and the estuary's
  environmental water supply (EWS). Three of the Python rules can fail by leaving a
  local unbound; here they return an `Outcome.Result`. A salinity cell is
  `NaN | Psu(x)`. Python's builtin `max` is modelled with its NaN behaviour: a NaN at the
  head of the window is kept, and a NaN after a number is skipped.
- **The one-day protocol chain** (`ThcChain`, `thc_chain.dfy`): `THC_Class.py`.
  - The thirty-one per-day output columns are one record of sequences.
  - The chain is split into its six stages of writes. Each stage states which slot it
    writes and which columns it leaves alone.
  - The chain returns either the completed columns with the two values handed back,
    or the columns as far as they were written with the reason it stopped.
- **The closed-form steps of one simulated day** (`DailyStep`, `daily_step.dfy`), from
  `loone/loone_q/LOONE_Q.py`:
  - the LOSA supply bookkeeping;
  - the weekly-to-daily demand table and its day counter;
  - the decision-tree branch codes;
  - the pulse-table rows and the numpy look-back reads;
  - the `max(0, …)` clamp of the S-308 regulatory release;
  - the capped southward releases and the regulatory volumes;
  - the parametric S-308/S-77 release rule;
  - the storage change;
  - the monthly basin-runoff table.
- **The daily loop** (`DayLoop`, `day_loop.dfy`). Iteration `i` runs over
  `0 .. n_rows - 3`. It reads slots `i`, `i + 1` and `i - 6`, writes slot `i + 2`, and
  runs the protocol chain on day `i`. The collaborators that compute the pulse day,
  the release multiplier, the new storage and the stage of a step are function
  parameters. The stage rule receives the step as well as its storage, because it may
  replay the observed end-of-day stage of that step. The loop's contract records how the
  source behaves:
  - the chain's guard `i < n_rows - 2` holds on every iteration;
  - the day flag read in iteration `i` sits in slot `i + 2`, which the loop only
    writes two iterations later. Every read after the first therefore sees an
    unwritten cell;
  - a pulse day beyond the current step wraps, as a negative numpy index, to a
    multiplier slot not yet written, which is zero;
  - the flag stored before the loop is always the plain date of step 2. Step 2 is
    the day after the start date, and the current-schedule start date is the start
    date itself;
  - the storages of the two initial steps stay zero. The starting storage reaches the
    run only as an argument of the storage rule, because the helper that would store it
    (`loone/loone_q/LOONE_Q.py:1384-1396`) is never called;
  - every iteration reads the pulse table at row `PlsDay - 1` (the last row for a pulse
    day of 0 or below), and a pulse day with no such row stops the run;
  - the run finishes whenever the protocol settings bind and every pulse day keeps the
    look-back inside the multiplier array and has a row in the pulse table;
  - in a finished run the pulse day, multiplier and look-back of every written step are
    the rules' values, with the pulse day computed from the flag two slots ahead.
- **The state store** (`ModelVariables`, `model_variables.dfy`):
  `loone/data/model_variables.py`. It holds the zero-filled arrays grouped by the time
  base that sizes them:
  - per step: `n_rows = D + 1`;
  - per simulated day: `D`;
  - per Friday;
  - per month start, with at least one;
  - per configured month.

  A forecast run has sixteen days and never reads the configured start and end dates.
  The thirty-one protocol arrays are the protocol chain's zero columns.
- **Support modules:**
  - `Calendar` (`calendar.dfy`): the Gregorian calendar, season classes, and day
    numbers that match Python's `date.toordinal`.
  - `Outcome` (`outcome.dfy`): the `Result` type.

Flows are `real`s, in cfs or acre-feet, and one cfs for one day is 1.9835 acre-feet.

## Model

| member | source | states |
|---|---|---|
| Calendar.DaysInMonth | loone/loone_q/LOONE_Q.py:1506-1508 | Month length is 28 to 31 days: 31 exactly in months 1, 3, 5, 7, 8, 10 and 12; 30 exactly in 4, 6, 9 and 11; February has 29 days exactly in Gregorian leap years. |
| Calendar.Season | loone/loone_q/LOONE_Q.py:1558-1568 | The season class is 1 to 4: 2 exactly for March-May, 3 exactly for June-July, 4 exactly for August-October, 1 for every other month value. |
| Calendar.DetermineSeasons | loone/loone_q/LOONE_Q.py:1556-1572 | One season and one month per date, each equal to that date's season class and month. |
| Calendar.LateDrySeasonColumn | loone/loone_q/LOONE_Q.py:1479-1480 | One flag per date, true exactly when the month is April or May. |
| Calendar.NextDay | loone/loone_q/LOONE_Q.py:1745-1749 | The day after a valid date is valid, falls on a different month-and-day, and is in the same year unless it is 1 January of the next year. |
| Calendar.NextDayOrdinal | loone/loone_q/LOONE_Q.py:1745-1749 | The day after a date has the next day number, across month and year ends and leap days. |
| Calendar.AddDaysOrdinal | loone/data/model_variables.py:23-26 | Adding `k` days to a date advances its day number by exactly `k`. |
| ApRules.ThcClassNormalOrAbove | AP_FNs.py:10-17 | The tributary condition counts as normal or above exactly when it is strictly above the threshold; equal is below. |
| ApRules.LStgCorres | AP_FNs.py:19-35 | Line option 1 gives WSM1 from June to September and WSM1 + 0.5 ft otherwise. Any other option gives the sentinel -999 for percentile 1 or June-September, and the target stage otherwise. |
| ApRules.LowChanceCheck | AP_FNs.py:37-42 | The check holds exactly when the stage is strictly above the corresponding stage, so the -999 sentinel passes every real stage. |
| ApRules.ForecastDSal | AP_FNs.py:44-64 | Both the daily salinity forecast and its 30-day moving average: only option 3 produces a cell, and it is NaN. Options 1, 2 and any other value fail with the result unbound. |
| ApRules.PyMax | AP_FNs.py:66-78 | Python's `max` returns an element of the window. A leading NaN swallows the whole window. After a numeric head the result is a number at least every numeric cell, so later NaNs are skipped. |
| ApRules.N30davgForecast | AP_FNs.py:66-78 | Option 3 returns the external estuary flag unchanged. Otherwise, when the window starts with a number, the answer is true exactly when some numeric cell exceeds the threshold; a window starting with NaN answers false. |
| ApRules.SwitchO | AP_FNs.py:99-107 | The switch is 0 or 1, and 1 exactly when the low-chance test failed while a baseflow is scheduled. |
| ApRules.Lors08BfRel | AP_FNs.py:80-85 | The LORS-08 gate passes exactly when a baseflow is scheduled (positive) and the forecast says the estuary needs water. Partner: `GateFolding`. |
| ApRules.LdsLc61 | AP_FNs.py:87-97 | The low-chance test, which under option 1 also needs the late dry season; it never holds without the low-chance test. Partner: `SwitchO`, `GateFolding`. |
| ApRules.All4 | AP_FNs.py:109-114 | "All four" holds exactly when the LORS-08 gate and the low-chance test both hold. Partner: `GateFolding`. |
| ApRules.Sabf | AP_FNs.py:116-121 | Above the baseflow sub-band exactly for zone codes 4 and higher. Partner: `SubbandsDisjoint`. |
| ApRules.Swbf | AP_FNs.py:123-128 | Within the baseflow sub-band exactly for zone code 3, which is never above the sub-band. Partner: `SubbandsDisjoint`. |
| ApRules.Swbu | AP_FNs.py:130-135 | Within the beneficial-use sub-band exactly for zone code 2, which lies in neither other sub-band. Partner: `SubbandsDisjoint`. |
| ApRules.All4AndStage | AP_FNs.py:137-142 | "All four" with the stage above the baseflow sub-band. Partner: `GateFolding` (the two stage splits partition "all four"). |
| ApRules.All4AndStageIn | AP_FNs.py:144-149 | "All four" with the stage not above the baseflow sub-band. Partner: `GateFolding`. |
| ApRules.PApBfStg | AP_FNs.py:151-156 | A positive baseflow is scheduled and the zone code is 4 to 6, which lies above the baseflow sub-band. Partner: `ClosedLorsGatePassesUnderOtherOption`. |
| ApRules.LogicTest1 | AP_FNs.py:158-165 | Option 0 keeps the "all four above the sub-band" gate; any other option uses the zone-and-baseflow test instead. Partner: `ClosedLorsGateGivesZero`, `ClosedLorsGatePassesUnderOtherOption`. |
| ApRules.Min | AP_FNs.py:171 | Python's `min` of two numbers: at most each and equal to one of them. |
| ApRules.PostApBaseflow | AP_FNs.py:167-174 | The result is the scheduled baseflow, the capped baseflow, or zero. For non-negative inputs it lies between 0 and the scheduled baseflow. It is zero when neither gate passes. |
| ApRules.S77RsPlusPreApS77Bsf | AP_FNs.py:176-190 | No S-77 release or baseflow is scheduled (their sum is zero), and under option 0 the zone code is also above 1. |
| ApRules.NoScheduledS77ReleaseOptions | AP_FNs.py:176-190 | Option 0 only narrows the "nothing scheduled at S-77" test; any scheduled flow shuts it under every option; under other options it is exactly "the sum is zero". |
| ApRules.AndEstNeedsLakeWater | AP_FNs.py:192-197 | The estuary needs water and nothing is scheduled at S-77. Partner: `EwsGateOptions`. |
| ApRules.AndLowChance61StageLessTh11 | AP_FNs.py:199-204 | The low-chance test holds as well. Partner: `EwsGateOptions`. |
| ApRules.Athcnora | AP_FNs.py:206-227 | The EWS gate: the estuary conditions hold and the tributary condition is normal or above, or (option 1 only) it is the late dry season. Partner: `EwsGateOptions`. |
| ApRules.PostApEws | AP_FNs.py:259-273 | Zero with the gate shut; the calibrated target in zone 0; otherwise the target less the cutback fraction of it. Partner: `PostApEwsByZone`. |
| ApRules.ChoosePapEws1 | AP_FNs.py:229-246 | For zones 1-4 the fraction is that zone's cutback percentage divided by 100. Any other zone gets -9999. |
| ApRules.ChoosePapEws2 | AP_FNs.py:248-257 | The target is defined exactly for options 0, 1 and 2 (none, the calibrated target, 300 cfs). Every other option fails unbound. |
| ApRules.GateFolding | AP_FNs.py:80-149 | Without a scheduled baseflow the LORS-08 gate is shut. "All four" implies the LORS-08 gate. The two stage splits of "all four" are disjoint and together equal it. |
| ApRules.SubbandsDisjoint | AP_FNs.py:116-135 | "Above the baseflow sub-band" means zone 4 or higher. The three sub-band tests never hold together, and one of them holds exactly when the zone code is 2 or more. |
| ApRules.GatedBaseflow | AP_FNs.py:80-174 | The baseflow chain flattened: the scheduled baseflow passes whole when positive and either (option 0) the forecast and low-chance test hold in zone 4 or above, or (other options) the zone is 4-6; it is capped by `Choose_1` when positive with forecast and low-chance test in zone 3 or below; otherwise zero. Partner: `NoScheduledBaseflowGivesZero`. |
| ApRules.NoScheduledBaseflowGivesZero | AP_FNs.py:80-174 | Through the whole gate chain, no scheduled S-77 baseflow gives zero post-protocol baseflow, under either option. |
| ApRules.ClosedLorsGateGivesZero | AP_FNs.py:151-174 | Under option 0, a shut LORS-08 gate gives zero post-protocol baseflow. |
| ApRules.ClosedLorsGatePassesUnderOtherOption | AP_FNs.py:158-165 | Under option 1, a scheduled baseflow passes unrestricted in zone 4 even with the LORS-08 gate shut. |
| ApRules.EwsGateOptions | AP_FNs.py:192-227 | The late-dry-season bypass only widens the EWS gate. The gate is shut when the estuary conditions fail. Those conditions require the salinity forecast. |
| ApRules.PostApEwsByZone | AP_FNs.py:229-273 | Post-protocol EWS by zone: zero with the gate shut; the calibrated target in zone 0; the target times (1 - cutback/100) in zones 1-4; and 10000 times the target in any other zone, from the -9999 sentinel. |
| ThcChain.ZeroColumns | loone/data/model_variables.py:158-189 | The thirty-one protocol columns have one slot per simulated day, each zero: false in the flag columns, 0 in the codes and flows, 0 psu in the salinity columns. |
| ThcChain.SalinityWindow | THC_Class.py:110-115 | The slice `[i:i+13]` has 13 cells, or fewer at the end of the column, and cell `k` is slot `i + k`. |
| ThcChain.SizedInputsCoverDay | THC_Class.py:67-205 | On a day at least two days from the end of the run, every read offset (`i`, `i+1`, `i+2`) lies inside its input. |
| ThcChain.WriteHead | THC_Class.py:67-74 | Writes slot `i` of the first three columns only: the tributary test, and the stage and zone read one step ahead. |
| ThcChain.WriteLowChance | THC_Class.py:76-95 | Writes the corresponding stage, the low-chance test against the stored stage, and the S-77 flows read two steps ahead with their sum. |
| ThcChain.WriteSalinity | THC_Class.py:106-118 | Stores the two salinity cells first, then evaluates the forecast over a window that already holds them, then the LORS-08 gate. |
| ThcChain.WriteBaseflow | THC_Class.py:120-155 | Writes the eleven baseflow columns, each from the values written just before it. |
| ThcChain.WriteEwsGates | THC_Class.py:166-194 | Writes the four EWS gate columns and the cutback fraction of the water-shortage zone two steps ahead. |
| ThcChain.WriteEws | THC_Class.py:196-208 | Writes the EWS target, the post-protocol EWS and the sum of baseflow and EWS. |
| ThcChain.ThcClass | THC_Class.py:22-212 | The chain completes exactly when the target-stage column exists, the salinity option is 3 and the EWS option is 0-2. Either way it keeps every column's length and every slot other than `i`. When it completes it returns slot `i` of the EWS and baseflow columns. |
| ThcChain.ChainHeadReads | THC_Class.py:67-74 | Whatever the outcome, slot `i` holds the tributary test, `stage[i+1]` and `zone[i+1]`. |
| ThcChain.ChainAbortFraming | THC_Class.py:76-199 | Each failure names its cause. A missing target-stage column leaves columns 4-31 untouched; an unbound salinity forecast leaves columns 9-31 untouched; an unbound EWS choice leaves 29-31 untouched. |
| ThcChain.ChainSupplyReads | THC_Class.py:86-95 | Once the target-stage column exists, the S-77 regulatory release and baseflow are read at `i + 2` and summed. |
| ThcChain.ChainCompletedValues | THC_Class.py:106-208 | A completed chain forecasts with the external flag. Its baseflow is the gated baseflow of that day's inputs. Its EWS gate is the gate applied to that day's forecast flag, S-77 release and baseflow, zone and tributary reading, and its EWS is the zone's reduced target behind that gate. The sum column adds the two values it returns. |
| ThcChain.ChainReleaseBounds | THC_Class.py:152-208 | The returned baseflow lies between 0 and the scheduled S-77 baseflow and is zero when none is scheduled. The EWS is zero when its gate is shut. |
| DailyStep.NiSupply | loone/loone_q/LOONE_Q.py:92-106 | Net inflow after supply plus the supply gives back the net inflow; a non-negative supply can only lower it. |
| DailyStep.Cutback | loone/loone_q/LOONE_Q.py:109-122 | Cutback plus supply is the demand, and the cutback is non-negative exactly when the supply does not exceed the demand. |
| DailyStep.DemandNotSupplied | loone/loone_q/LOONE_Q.py:125-143 | Zero demand gives 0; otherwise the percentage times the demand is 100 times the cutback. |
| DailyStep.ShortfallPercentRange | loone/loone_q/LOONE_Q.py:109-143 | For a supply between 0 and the demand the unsupplied share is 0 to 100 %: 0 exactly when the demand is met, 100 exactly when nothing is supplied. |
| DailyStep.CountsSince | loone/loone_q/LOONE_Q.py:1590-1597 | One count per date, never negative, reset to 0 on every anniversary of the start date and one more than the previous count otherwise. |
| DailyStep.DayCounts | loone/loone_q/LOONE_Q.py:1590-1597 | The counter is bound exactly when the first date is an anniversary (or there are no dates); otherwise the run fails as unbound. |
| DailyStep.LastReset | loone/loone_q/LOONE_Q.py:1590-1597 | Finds an anniversary at or before day `k` with none after it up to `k`. |
| DailyStep.CountIsDaysSinceReset | loone/loone_q/LOONE_Q.py:1590-1597 | The count on day `k` is the number of days since the most recent anniversary. |
| DailyStep.RunFromStartBindsCounter | loone/loone_q/LOONE_Q.py:1590-1597 | A run whose dates begin on the start date binds the counter, starting at 0. |
| DailyStep.WeekNumber | loone/loone_q/LOONE_Q.py:1599-1605 | The week is 1 to 52. Day counts up to 363 fall in the week whose seven days contain them; later counts stay in week 52. |
| DailyStep.DailyDemand | loone/loone_q/LOONE_Q.py:1607-1614 | Defined exactly for weeks present in the table, where seven days of it at 100 % give the week's demand times the multiplier. Other weeks fail. |
| DailyStep.DemandsFor | loone/loone_q/LOONE_Q.py:1607-1614 | The column exists exactly when every day's week is in the table, and then each day's value is that week's daily demand. |
| DailyStep.DailyDemandColumn | loone/loone_q/LOONE_Q.py:1576-1617 | Fails unbound when the first date is not an anniversary, and always succeeds with a 52-week table otherwise. Each day gets the demand of its week since the last anniversary. |
| DailyStep.FullTableDemand | loone/loone_q/LOONE_Q.py:1590-1614 | A run from the start date with a 52-week table has a demand column, and its first day takes week 1's demand. |
| DailyStep.BranchCode | loone/loone_q/LOONE_Q.py:249-298 | The four decision digits of zones D, C and B fold into a code between 0 and 9999. |
| DailyStep.BranchCodeDigits | loone/loone_q/LOONE_Q.py:249-298 | The thousands, hundreds, tens and units digits of the code are the four decision digits. |
| DailyStep.BranchCodeInjective | loone/loone_q/LOONE_Q.py:249-298 | Distinct digit tuples give distinct branch codes. |
| DailyStep.PulseRow | loone/loone_q/LOONE_Q.py:525-531 | Pulse day `p >= 1` reads row `p - 1`; a pulse day of 0 or below reads the last row. |
| DailyStep.PulseRowInTable | loone/loone_q/LOONE_Q.py:525-556 | Pulse days up to the table length read a row inside a non-empty table, and day 0 reads the last row. |
| DailyStep.PulseLookup | loone/loone_q/LOONE_Q.py:785-818 | The lookup succeeds exactly when that row exists and then returns it; otherwise it fails naming the missing row. |
| DailyStep.NumpyIndex | loone/loone_q/LOONE_Q.py:496 | Indices from `-n` to `n - 1` are accepted. The result is the slot congruent to the index modulo `n`, and a non-negative index stays unchanged. Anything else fails. |
| DailyStep.MultLookback | loone/loone_q/LOONE_Q.py:490-499 | The look-back succeeds exactly when `i + 2 - PlsDay` is a valid numpy index. It reads `PlsDay` steps back, or wraps to the end of the array when `PlsDay > i + 2`. |
| DailyStep.WrappedLookbackReadsAhead | loone/loone_q/LOONE_Q.py:752-759 | A pulse day past the current step but short of the array length reads a slot after the current step. |
| DailyStep.ClampLow | loone/loone_q/LOONE_Q.py:1508-1509 | `max(0, x)` is non-negative, at least `x`, and either 0 or `x`. |
| DailyStep.Outlet2Usrg1 | loone/loone_q/LOONE_Q.py:562-565 | The release is non-negative and, with the C-44 runoff, covers the S-80 release. It equals the difference when the S-80 release exceeds the runoff, and is zero otherwise. |
| DailyStep.RegCap | loone/loone_q/LOONE_Q.py:1153-1156 | The capped release is at most the cap and at most the scaled choice, and equals one of them. |
| DailyStep.RegCapMonotone | loone/loone_q/LOONE_Q.py:1178-1181 | A larger choice never lowers the capped release, and a scaled choice under the cap passes unchanged. |
| DailyStep.TotalRegulatory | loone/loone_q/LOONE_Q.py:1129-1197 | The east-west (S-77 plus S-308) and southward (WCA plus L-8/C-51) regulatory volumes: two flows become one volume, linear in each flow at 1.9835 acre-feet per cfs-day and non-negative for non-negative flows. |
| DailyStep.TotRegSoBelowCaps | loone/loone_q/LOONE_Q.py:1153-1197 | The southward volume never exceeds the volume of the two caps. |
| DailyStep.ParametricRelease | loone/loone_q/LOONE_Q.py:669-686 | The ceiling at or above 18 ft, nothing at or below 8 ft. In between, the month's design release when the phosphorus trigger is within the half-year's parameter, else nothing. |
| DailyStep.S308Release | loone/loone_q/LOONE_Q.py:669-686 | S-308 releases 7200 cfs at or above 18 ft, and otherwise 0 or the month's design release. |
| DailyStep.S77Release | loone/loone_q/LOONE_Q.py:1075-1092 | S-77 releases 7800 cfs at or above 18 ft, and otherwise 0 or the month's design release. |
| DailyStep.ParametricReleaseBounds | loone/loone_q/LOONE_Q.py:669-686 | Every month belongs to exactly one half-year. A design table within the ceiling keeps every release between 0 and the ceiling. |
| DailyStep.ParametricReleaseTriggerMonotone | loone/loone_q/LOONE_Q.py:1075-1092 | A lower phosphorus reading never lowers the release. |
| DailyStep.DeltaStorage | loone/loone_q/LOONE_Q.py:1315-1330 | The storage change is inflows (net inflow, rain, deviation, and backflows and canal supply at 1.9835 per cfs) minus outflows (evapotranspiration, EWS, and both regulatory volumes). |
| DailyStep.DeltaStorageAtRest | loone/loone_q/LOONE_Q.py:1315-1330 | With every term zero the storage does not change. |
| DailyStep.DeltaStorageResponse | loone/loone_q/LOONE_Q.py:1315-1330 | Another `x` cfs at S-77 lowers the change by 1.9835·x acre-feet; more net inflow raises it one for one. |
| DailyStep.Shortfall | loone/loone_q/LOONE_Q.py:1508-1509 | The baseflow the runoff leaves uncovered is non-negative, at least the gap, and either 0 or the gap. |
| DailyStep.Excess | loone/loone_q/LOONE_Q.py:1511-1513 | The monthly excess of runoff over baseflow is non-negative and zero when the runoff does not exceed the baseflow. |
| DailyStep.ShortfallExcessSplit | loone/loone_q/LOONE_Q.py:1508-1513 | Shortfall and daily excess are never both positive, and shortfall minus daily excess is exactly baseflow minus runoff. |
| DailyStep.BasinRunoff | loone/loone_q/LOONE_Q.py:1502-1513 | One row per month start. Each row has the month length from the calendar, the two shortfalls, the C-44 shortfall plus the St. Lucie tributary flow, and the monthly excess, all clamped non-negative. |
| DayLoop.InitialDayFlag | loone/loone_q/LOONE_Q.py:1399-1423 | SimDay1 exactly when step 2 falls on the start month-and-day. The current-schedule flag exactly when it is otherwise that date. In every other case, the date itself. |
| DayLoop.InitialFlagIsPlainDate | loone/loone_q/LOONE_Q.py:1692-1696 | With step 2 the day after the start date and the current-schedule start equal to the start date, the stored flag is always the plain date. |
| DayLoop.InitialFlagNeverCsStart | loone/loone_q/LOONE_Q.py:1630-1633 | The current-schedule start date is read from the same setting as the start date, so the "CS start date" flag is never produced. |
| DayLoop.LoopDayFlag | loone/loone_q/LOONE_Q.py:327-339 | SimDay1 exactly on the start month-and-day, in any year when the current-schedule flag is 0 and only in the start year otherwise. Every other day gets its date. |
| DayLoop.InitialState | loone/loone_q/LOONE_Q.py:1677-1696 | The first two stages are the configured starting stage and slot 2 carries the initial flag. Every other flag is unset. Every storage, including the first two, is zero, and later stages, multipliers and the two protocol outflows are zero. |
| DayLoop.RunChain | loone/loone_q/LOONE_Q.py:997-1046 | The loop's view of the chain: it completes exactly under the binding settings and touches only slot `i` of the protocol columns. |
| DayLoop.Advance | loone/loone_q/LOONE_Q.py:1811-1855 | One iteration, in source order: flag slot `i`, pulse day from flag slot `i + 2`, seven-day change at `i + 1`, multiplier and look-back, the pulse-table row of the pulse day, chain, storage change, storage at `i + 2`, and the stage of step `i + 2` from that storage and the step. A failed look-back names an out-of-range index, a missing pulse row names a pulse day past the table, and a stopped chain names unbound settings. |
| DayLoop.DailyLoop | loone/loone_q/LOONE_Q.py:1811-1855 | Runs shorter than 3 steps stop at once. A run with binding protocol settings, and pulse days that keep the look-back in range and have a row in the pulse table (`loone/loone_q/LOONE_Q.py:525-556`), always finishes. A stop is caused by unbound settings (only on the first day), an out-of-range pulse day or a pulse day past the table. A finished run made `n_rows - 2` protocol calls, and every flag read after the first saw an unset slot. Each written step's pulse day is the pulse rule applied to that read flag, and its multiplier is the multiplier rule's value. Its look-back read the multiplier it lands on when that slot is at or behind the step, and zero when it is ahead. The first two storages are zero, and the storage, stage and seven-day recurrences hold for every written step. The last protocol day stays zero. |
| DayLoop.LookbackOutOfRange | loone/loone_q/LOONE_Q.py:492-499 | A look-back index outside numpy's range can only come from a pulse day outside `(i + 2 - n, i + 2 + n]`. |
| DayLoop.PulseOutOfTable | loone/loone_q/LOONE_Q.py:525-556 | A missing pulse-table row can only come from a pulse day past the table (or any pulse day of an empty table). |
| DayLoop.LookbackSlot | loone/loone_q/LOONE_Q.py:492-499 | While the slots past the current step are unwritten, a look-back at or behind the step reads that slot (wrapping from the end when the pulse day is at least the array length), and one ahead of it reads zero. |
| DayLoop.StorageTelescopes | loone/loone_q/LOONE_Q.py:1300-1337 | In a finished run whose storage rule adds each day's change to the previous storage, the storage of step `k` is the sum of the changes of steps 2 to `k`. The starting storage does not appear, because the first two storages are zero. |
| DayLoop.StorageHeldWithoutFlows | loone/loone_q/LOONE_Q.py:1300-1360 | In such a finished run with no storage change on any step, every storage stays zero and each stage is the stage rule's value for zero storage on that step. |
| ModelVariables.DayCount | loone/data/model_variables.py:55-58 | A daily range has `end - start + 1` days when it is non-empty, and is empty exactly when the end is before the start. |
| ModelVariables.FridaysCounted | loone/data/model_variables.py:35-38 | The weekly count equals the number of day numbers in the range that fall on a Friday. |
| ModelVariables.NewModelVariables | loone/data/model_variables.py:8-189 | Each array group has its name set and its size: steps from the day before the start, days, Fridays to the tributary end, month starts (at least one) and configured months. Every slot is zero. A forecast run uses today and today + 15 and needs no usable configured start or end. |
| ModelVariables.StepsAreDaysPlusOne | loone/data/model_variables.py:55-66 | A run that ends no earlier than the day before it starts has exactly one more step than days. |
| ModelVariables.ForecastRunSize | loone/data/model_variables.py:23-26 | A forecast run has 16 days and 17 steps, whatever the configured dates are, usable or not. |
| ModelVariables.ForecastIgnoresConfiguredDates | loone/data/model_variables.py:23-31 | A forecast run builds the same store whatever the configured start and end dates. |
| ModelVariables.StoreHoldsChainColumns | loone/data/model_variables.py:158-189 | Each of the thirty-one protocol arrays, looked up by its Python name, is exactly the matching zero column of the protocol chain read as a float64 array (a flag as 1.0 or 0.0). |

## Left out

- File and network I/O: CSV reading and writing, the workspace, `datetime.today()` (a
  parameter here), the CLI and pandas frames. The model works on sequences and dates.
- The `lo_functions`, `dec_tree_functions`, `trib_hc`, WCA-stage and stage-storage
  collaborators. They are separate rule libraries. `DailyLoop` receives the pulse-day,
  multiplier, storage and stage rules as function parameters. The stage rule
  `stageFn(storage, step)` stands for `Lake_Stage(stg2sto(storage), EOD stage of the
  step, option_stage)`. The SFWMM end-of-day stage series and the stage option are
  therefore folded into that parameter, and nothing is proved about them. The other per-step
  columns, such as zone codes, LOSA supply, the `Sum_Outlet*` rules and WSA, are inputs.
- The globals the entry point leaves unbound. `p1`, `p2`, the phosphorus reading, the
  design tables and the start storage are parameters.
- The call at `loone/loone_q/LOONE_Q.py:999` passes the configuration as an extra first
  argument. `THC_Class` does not accept it and reads its settings from a global module.
  The chain is modelled from `THC_Class.py`'s own parameter meanings, with the settings
  passed as an `ApConfig`.
- The salinity-option label `S` (`THC_Class.py:97-102`) is computed and never used.
- Simulation type 0 releases at S-308 and S-77 come from the SFWMM daily outputs through
  `lo_functions` and are not modelled. Only the parametric rule is.
- Floating point: flows are exact reals, so rounding of the 1.9835 conversion and NaN
  propagation through arithmetic are not modelled. NaN appears only where the source
  creates it, in the salinity cells.
- DayLoop.Advance: the pulse-table reads are modelled only for whether the row exists.
  The values feed the S-80 and S-77 release rules of `lo_functions`, which are not part
  of this model. One column stands for the table, since all its columns share the rows.
- DayLoop.DailyLoop: after a stopped run the partial protocol columns of the failing day
  are not kept. The outcome reports only the step and the cause.
- DayLoop.DailyLoop: the integer 0 that numpy stores in an unwritten `DayFlags` cell is
  the `Unset` flag. The lake stage array is the only per-step input the loop recomputes.
  Its other per-step inputs are given columns.
- ModelVariables.NewModelVariables: the month-start count is given by its closed form
  (months between the dates, plus the start month when the run starts on the 1st) and
  is not proved against an enumeration of dates. Python's year-9999 limit on dates is
  not modelled.
- ModelVariables.NewModelVariables: arrays are kept in five maps by time base rather
  than one attribute namespace, and `dtype=object` zeros are the real 0.0.
- DailyStep.TotalRegulatory states the volumes exactly, with no floating-point rounding.

Three behaviours of the code that the model keeps as written:

- The helper that stores the start storage in steps 0 and 1
  (`loone/loone_q/LOONE_Q.py:1384-1396`) is never called, so both storages keep the zero
  they get at `loone/data/model_variables.py:156`. The first storage rule call receives
  `(flag, 0, start_storage, 0, DSto[2])`. The start storage reaches the run only through
  the rule's third argument, and the rule is not part of this model, so the model
  records the zeros (`DayLoop.InitialState`, `DayLoop.StorageTelescopes`) and does not
  claim the result is wrong.
- Under `Opt_NoAP_above_BF_SB != 0` (`AP_FNs.py:158-165`) the LORS-08 gate test is
  replaced by the stage test, so a scheduled baseflow passes in zones 4-6 even with the
  gate shut (`ApRules.ClosedLorsGatePassesUnderOtherOption`).
- A salinity option other than 3 leaves the forecast `F` unbound (`AP_FNs.py:44-64`), so
  the code raises on reading it rather than through an explicit error. The model reports
  `UnboundForecast(option)`.

=== FILE: ap_rules.dfy ===
/** The adaptive-protocol rule library: the small named rules that decide whether the
    Caloosahatchee baseflow release (S-77 baseflow) survives the protocol and how much
    environmental water supply (EWS) the estuary receives. Every rule is a pure
    function of booleans, integer zone codes and flows; the ones whose Python original
    can fail return a `Result`. */
module ApRules {
  import opened Outcome

  /** A cell of a salinity-forecast column: not-a-number, or a value in psu. */
  datatype Sal = NaN | Psu(psu: real)

  /** Why a rule, or the one-day chain built from the rules, stops the run. */
  datatype ApError =
    | UnboundForecast(option: int)       // the salinity-forecast stubs leave their result unbound
    | UnboundEwsChoice(option: int)      // the EWS choice has no branch for this option
    | MissingTargetStage(percent: int)   // the target-stage table has no such percentile column

  /** The months in which the low-chance target stage is not consulted (June-September). */
  predicate WetSeasonMonth(month: int) {
    6 <= month <= 9
  }

  /** Tributary hydrologic condition is "normal or above": strictly above the threshold. */
  function ThcClassNormalOrAbove(trib: real, threshold: real): (r: bool)
    ensures r <==> trib > threshold
    ensures trib == threshold ==> !r
  {
    if trib > threshold then true else false
  }

  /** The stage the lake must exceed for the "low chance of a low 6/1 stage" test.
      Line option 1 uses the first water-shortage line (raised by half a foot outside
      June-September); otherwise the percentile target stage is used, replaced by the
      sentinel -999 when the percentile is 1 or the month is June-September. */
  function LStgCorres(month: int, wsm1: real, targStg: real, optLine: int, lowChance: int): (st: real)
    ensures optLine == 1 && WetSeasonMonth(month) ==> st == wsm1
    ensures optLine == 1 && !WetSeasonMonth(month) ==> st == wsm1 + 0.5
    ensures optLine != 1 && (lowChance == 1 || WetSeasonMonth(month)) ==> st == -999.0
    ensures optLine != 1 && lowChance != 1 && !WetSeasonMonth(month) ==> st == targStg
  {
    if optLine == 1 then
      (if month > 5 && month < 10 then wsm1 else wsm1 + 0.5)
    else if lowChance == 1 || (month > 5 && month < 10) then -999.0
    else targStg
  }

  /** The lake stage is strictly above the corresponding target stage. */
  function LowChanceCheck(stage: real, corres: real): (r: bool)
    ensures r <==> stage > corres
    ensures corres == -999.0 && stage > -999.0 ==> r
  {
    if stage > corres then true else false
  }

  /** A salinity-forecast cell. The daily forecast and its thirty-day moving average share
      this body: options 1 and 2 are stubs that never bind the result, so only option 3
      yields a value, and that value is NaN. */
  function ForecastDSal(optSalFcast: int): (r: Result<Sal, ApError>)
    ensures r.Ok? <==> optSalFcast == 3
    ensures r.Ok? ==> r.value == NaN
    ensures r.Fail? ==> r.error == UnboundForecast(optSalFcast)
  {
    if optSalFcast == 1 then Fail(UnboundForecast(optSalFcast))
    else if optSalFcast == 2 then Fail(UnboundForecast(optSalFcast))
    else if optSalFcast == 3 then Ok(NaN)
    else Fail(UnboundForecast(optSalFcast))
  }

  /** Python's `>` on floats: false whenever either side is NaN. */
  predicate SalGreater(a: Sal, b: Sal) {
    a.Psu? && b.Psu? && a.psu > b.psu
  }

  /** Python's builtin `max` over a non-empty sequence: scan left to right and replace
      the running maximum only when an element compares strictly greater. A NaN at the
      head is never replaced; a NaN further on never replaces a number, so after a numeric
      head the result is the largest number and later NaNs are skipped. */
  function PyMax(s: seq<Sal>): (m: Sal)
    requires |s| > 0
    ensures m in s
    ensures s[0] == NaN ==> m == NaN
    ensures s[0].Psu? ==> m.Psu? && forall k :: 0 <= k < |s| && s[k].Psu? ==> s[k].psu <= m.psu
  {
    if |s| == 1 then s[0]
    else
      var m := PyMax(s[..|s| - 1]);
      if SalGreater(s[|s| - 1], m) then s[|s| - 1] else m
  }

  /** "Does the 30-day average forecast salinity exceed the threshold within two weeks?"
      Option 3 takes the answer from the external estuary-needs-water flag and never
      looks at the window; the other options compare the window's maximum. */
  function N30davgForecast(estuaryNeedsWater: bool, window: seq<Sal>, optSalFcast: int,
                           ceSalThreshold: real): (r: bool)
    requires optSalFcast == 3 || |window| > 0
    ensures optSalFcast == 3 ==> r == estuaryNeedsWater
    ensures optSalFcast != 3 && window[0].Psu? ==>
              (r <==> exists k :: 0 <= k < |window| && window[k].Psu? && window[k].psu > ceSalThreshold)
    ensures optSalFcast != 3 && window[0] == NaN ==> !r
  {
    if optSalFcast == 3 then estuaryNeedsWater
    else
      var m := PyMax(window);
      if m.Psu? && m.psu > ceSalThreshold then true else false
  }

  /** LORS-08 suggests a baseflow release and the estuary needs lake water. */
  function Lors08BfRel(s77bsAp: real, n30davgForecast: bool): (r: bool)
    ensures r <==> s77bsAp > 0.0 && n30davgForecast
  {
    if s77bsAp > 0.0 then n30davgForecast else false
  }

  /** Low-chance test, restricted to the late dry season when option 1 asks for it. */
  function LdsLc61(lateDrySeason: bool, lowChanceCheck: bool, lateDrySeasonOption: int): (r: bool)
    ensures r <==> lowChanceCheck && (lateDrySeasonOption != 1 || lateDrySeason)
    ensures r ==> lowChanceCheck
  {
    if lateDrySeasonOption == 1 then
      (if lateDrySeason then lowChanceCheck else false)
    else lowChanceCheck
  }

  /** The switch of the protocol sheet's column O: 1 exactly when the low-chance test
      failed while a pre-protocol baseflow is scheduled. */
  function SwitchO(ldsLc61: bool, s77bsAp: real): (s: int)
    ensures s in {0, 1}
    ensures s == 1 <==> !ldsLc61 && s77bsAp > 0.0
  {
    if !ldsLc61 then (if s77bsAp > 0.0 then 1 else 0) else 0
  }

  /** All four prior conditions hold. */
  function All4(lors08BfRel: bool, ldsLc61: bool): (r: bool)
    ensures r <==> lors08BfRel && ldsLc61
  {
    if lors08BfRel then ldsLc61 else false
  }

  /** Stage above the baseflow sub-band (zone code above 3). */
  function Sabf(zone: int): (r: bool)
    ensures r <==> zone >= 4
  {
    if zone > 3 then true else false
  }

  /** Stage within the baseflow sub-band (zone code 3). */
  function Swbf(zone: int): (r: bool)
    ensures r <==> zone == 3
    ensures r ==> !Sabf(zone)
  {
    if zone == 3 then true else false
  }

  /** Stage within the beneficial-use sub-band (zone code 2). */
  function Swbu(zone: int): (r: bool)
    ensures r <==> zone == 2
    ensures r ==> !Sabf(zone) && !Swbf(zone)
  {
    if zone == 2 then true else false
  }

  /** "All four" with the stage above the baseflow sub-band. */
  function All4AndStage(all4: bool, sabf: bool): (r: bool)
    ensures r <==> all4 && sabf
  {
    if all4 && sabf then true else false
  }

  /** "All four" with the stage at or below the baseflow sub-band. */
  function All4AndStageIn(all4: bool, sabf: bool): (r: bool)
    ensures r <==> all4 && !sabf
  {
    if all4 && !sabf then true else false
  }

  /** A pre-protocol baseflow is scheduled and the stage lies in zones 4 to 6. */
  function PApBfStg(zone: int, s77bsAp: real): (r: bool)
    ensures r <==> 4 <= zone <= 6 && s77bsAp > 0.0
    ensures r ==> Sabf(zone)
  {
    if (zone > 3 && zone < 7) && s77bsAp > 0.0 then true else false
  }

  /** Option 0 keeps the original protocol gate; any other option lets the scheduled
      baseflow through whenever the stage is above the baseflow sub-band. */
  function LogicTest1(all4AndStage: bool, pApBfStg: bool, optNoApAboveBfSb: int): (r: bool)
    ensures optNoApAboveBfSb == 0 ==> (r <==> all4AndStage)
    ensures optNoApAboveBfSb != 0 ==> (r <==> pApBfStg)
  {
    if optNoApAboveBfSb == 0 then all4AndStage else pApBfStg
  }

  function Min(a: real, b: real): (m: real)
    ensures m <= a && m <= b && (m == a || m == b)
  {
    if a <= b then a else b
  }

  /** Post-protocol baseflow (cfs): the scheduled baseflow when the gate passes, the
      scheduled baseflow capped by `choose1` inside the baseflow band, otherwise zero. */
  function PostApBaseflow(logicTest1: bool, s77bsAp: real, all4AndStageIn: bool, choose1: real): (pb: real)
    ensures pb == s77bsAp || pb == Min(s77bsAp, choose1) || pb == 0.0
    ensures s77bsAp >= 0.0 && choose1 >= 0.0 ==> 0.0 <= pb <= s77bsAp
    ensures !logicTest1 && !all4AndStageIn ==> pb == 0.0
  {
    if logicTest1 then s77bsAp
    else if all4AndStageIn then Min(s77bsAp, choose1)
    else 0.0
  }

  /** No regulatory or baseflow release is scheduled at S-77; under option 0 the stage
      must also be above the lowest water-shortage band (zone code above 1). */
  function S77RsPlusPreApS77Bsf(s77rsPreApS77Baseflow: real, zone: int, optCeEwsLowsm: int): (r: bool)
    ensures r <==> s77rsPreApS77Baseflow == 0.0 && (optCeEwsLowsm != 0 || zone > 1)
  {
    if optCeEwsLowsm == 0 then
      (if s77rsPreApS77Baseflow == 0.0 && zone > 1 then true else false)
    else if s77rsPreApS77Baseflow == 0.0 then true
    else false
  }

  /** The estuary needs lake water and no S-77 release is scheduled. */
  function AndEstNeedsLakeWater(n30davgForecast: bool, s77rsPlus: bool): (r: bool)
    ensures r <==> n30davgForecast && s77rsPlus
  {
    if n30davgForecast && s77rsPlus then true else false
  }

  /** The low-chance test holds as well. */
  function AndLowChance61StageLessTh11(ldsLc61: bool, andEstNeedsLakeWater: bool): (r: bool)
    ensures r <==> ldsLc61 && andEstNeedsLakeWater
  {
    if ldsLc61 && andEstNeedsLakeWater then true else false
  }

  /** The EWS gate: the estuary conditions hold and the tributary condition is normal or
      above; option 1 also accepts the late dry season in place of the tributary test. */
  function Athcnora(andLowChance: bool, thcNormalOrAbove: bool, lateDrySeason: bool,
                    optThcBypLateDs: int): (r: bool)
    ensures r <==> andLowChance && (thcNormalOrAbove || (optThcBypLateDs == 1 && lateDrySeason))
  {
    if optThcBypLateDs == 1 then
      (if andLowChance && (thcNormalOrAbove || lateDrySeason) then true else false)
    else
      (if andLowChance && thcNormalOrAbove then true else false)
  }

  /** Cutback fraction for water-shortage zones 1-4; -9999 for any other zone. */
  function ChoosePapEws1(wsmZone: int, apcb1: real, apcb2: real, apcb3: real, apcb4: real): (c1: real)
    ensures wsmZone == 1 ==> c1 * 100.0 == apcb1
    ensures wsmZone == 2 ==> c1 * 100.0 == apcb2
    ensures wsmZone == 3 ==> c1 * 100.0 == apcb3
    ensures wsmZone == 4 ==> c1 * 100.0 == apcb4
    ensures !(1 <= wsmZone <= 4) ==> c1 == -9999.0
  {
    if wsmZone == 1 then apcb1 / 100.0
    else if wsmZone == 2 then apcb2 / 100.0
    else if wsmZone == 3 then apcb3 / 100.0
    else if wsmZone == 4 then apcb4 / 100.0
    else -9999.0
  }

  /** Target EWS flow by option: 0 gives none, 1 the calibrated estuary target, 2 a
      fixed 300 cfs. Any other option leaves the Python result unbound. */
  function ChoosePapEws2(optCeEwsLowsm: int, calEstEws: real): (r: Result<real, ApError>)
    ensures r.Ok? <==> optCeEwsLowsm in {0, 1, 2}
    ensures optCeEwsLowsm == 0 ==> r == Ok(0.0)
    ensures optCeEwsLowsm == 1 ==> r == Ok(calEstEws)
    ensures optCeEwsLowsm == 2 ==> r == Ok(300.0)
  {
    if optCeEwsLowsm + 1 == 1 then Ok(0.0)
    else if optCeEwsLowsm + 1 == 2 then Ok(calEstEws)
    else if optCeEwsLowsm + 1 == 3 then Ok(300.0)
    else Fail(UnboundEwsChoice(optCeEwsLowsm))
  }

  /** Post-protocol EWS (cfs): zero unless the EWS gate passes; then the calibrated target
      in zone 0 and the target reduced by the zone's cutback fraction otherwise. */
  function PostApEws(athcnora: bool, wsmZone: int, c1: real, c2: real, calEstEws: real): (r: real)
    ensures !athcnora ==> r == 0.0
    ensures athcnora && wsmZone == 0 ==> r == calEstEws
    ensures athcnora && wsmZone != 0 ==> r == c2 - c1 * c2
  {
    if athcnora then
      (if wsmZone == 0 then calEstEws else (1.0 - c1) * c2)
    else 0.0
  }

  // ---------------------------------------------------------------------------
  // Laws relating the rules to one another.

  /** The gate folding: no LORS-08 release without a scheduled baseflow, "all four" implies
      the LORS-08 gate, and the stage split of "all four" is a partition. */
  lemma GateFolding(s77bsAp: real, fcast: bool, lds: bool, zone: int)
    ensures s77bsAp <= 0.0 ==> !Lors08BfRel(s77bsAp, fcast)
    ensures All4(Lors08BfRel(s77bsAp, fcast), lds) ==> Lors08BfRel(s77bsAp, fcast)
    ensures var all4 := All4(Lors08BfRel(s77bsAp, fcast), lds);
            && !(All4AndStage(all4, Sabf(zone)) && All4AndStageIn(all4, Sabf(zone)))
            && (All4AndStage(all4, Sabf(zone)) || All4AndStageIn(all4, Sabf(zone)) <==> all4)
  {
  }

  /** The three stage sub-bands are disjoint, and "above the baseflow band" means zone 4 or
      higher. */
  lemma SubbandsDisjoint(zone: int)
    ensures Sabf(zone) <==> zone >= 4
    ensures !(Sabf(zone) && Swbf(zone)) && !(Sabf(zone) && Swbu(zone)) && !(Swbf(zone) && Swbu(zone))
    ensures Sabf(zone) || Swbf(zone) || Swbu(zone) <==> zone >= 2
  {
  }

  /** The post-protocol baseflow that the gates of one day produce. Flattened, the gates
      say: the scheduled baseflow passes whole when it is positive and either (option 0)
      the forecast and the low-chance test hold above the baseflow sub-band, or (any other
      option) the zone is 4 to 6; it is capped by `choose1` when it is positive and the
      forecast and the low-chance test hold at or below the sub-band; otherwise nothing. */
  function GatedBaseflow(s77bsAp: real, fcast: bool, lds: bool, zone: int, optNoApAboveBfSb: int,
                         choose1: real): (r: real)
    ensures var passes := s77bsAp > 0.0 &&
                          (if optNoApAboveBfSb == 0 then fcast && lds && zone >= 4 else 4 <= zone <= 6);
            var capped := s77bsAp > 0.0 && fcast && lds && zone <= 3;
            r == (if passes then s77bsAp else if capped then Min(s77bsAp, choose1) else 0.0)
  {
    var all4 := All4(Lors08BfRel(s77bsAp, fcast), lds);
    var logic := LogicTest1(All4AndStage(all4, Sabf(zone)), PApBfStg(zone, s77bsAp), optNoApAboveBfSb);
    PostApBaseflow(logic, s77bsAp, All4AndStageIn(all4, Sabf(zone)), choose1)
  }

  /** Without a scheduled pre-protocol baseflow the post-protocol baseflow is zero under
      either setting of the "no protocol above the baseflow band" option. */
  lemma NoScheduledBaseflowGivesZero(s77bsAp: real, fcast: bool, lds: bool, zone: int,
                                     optNoApAboveBfSb: int, choose1: real)
    requires s77bsAp <= 0.0
    ensures GatedBaseflow(s77bsAp, fcast, lds, zone, optNoApAboveBfSb, choose1) == 0.0
  {
  }

  /** Under option 0 a closed LORS-08 gate closes every branch: the baseflow is zero. */
  lemma ClosedLorsGateGivesZero(s77bsAp: real, fcast: bool, lds: bool, zone: int, choose1: real)
    requires !Lors08BfRel(s77bsAp, fcast)
    ensures GatedBaseflow(s77bsAp, fcast, lds, zone, 0, choose1) == 0.0
  {
  }

  /** Under any other option the scheduled baseflow passes unrestricted above the baseflow
      band even though the LORS-08 gate is closed (no estuary need forecast). */
  lemma ClosedLorsGatePassesUnderOtherOption()
    ensures !Lors08BfRel(100.0, false)
    ensures GatedBaseflow(100.0, false, true, 4, 1, 450.0) == 100.0
  {
  }

  /** The late-dry-season bypass only widens the EWS gate, and the gate stays shut when the
      estuary conditions fail; those conditions in turn need the salinity forecast. */
  lemma EwsGateOptions(ldsLc61: bool, fcast: bool, s77rsPlus: bool, thc: bool, lateDry: bool, opt: int)
    ensures var alc := AndLowChance61StageLessTh11(ldsLc61, AndEstNeedsLakeWater(fcast, s77rsPlus));
            && (Athcnora(alc, thc, lateDry, opt) ==> Athcnora(alc, thc, lateDry, 1))
            && (!alc ==> !Athcnora(alc, thc, lateDry, opt) && !Athcnora(alc, thc, lateDry, 1))
            && (alc ==> fcast)
  {
  }

  /** The "no S-77 release scheduled" test: option 0 only narrows it (to zones above 1),
      and any scheduled release or baseflow shuts it under every option. */
  lemma NoScheduledS77ReleaseOptions(flow: real, zone: int, opt: int)
    ensures S77RsPlusPreApS77Bsf(flow, zone, 0) ==> S77RsPlusPreApS77Bsf(flow, zone, opt)
    ensures flow != 0.0 ==> !S77RsPlusPreApS77Bsf(flow, zone, opt)
    ensures opt != 0 ==> (S77RsPlusPreApS77Bsf(flow, zone, opt) <==> flow == 0.0)
  {
  }

  /** Post-protocol EWS by water-shortage zone, with the zone's cutback percentage. */
  lemma PostApEwsByZone(athcnora: bool, wsmZone: int, apcb1: real, apcb2: real, apcb3: real,
                        apcb4: real, c2: real, calEstEws: real)
    ensures var ews := PostApEws(athcnora, wsmZone, ChoosePapEws1(wsmZone, apcb1, apcb2, apcb3, apcb4),
                                 c2, calEstEws);
            && (!athcnora ==> ews == 0.0)
            && (athcnora && wsmZone == 0 ==> ews == calEstEws)
            && (athcnora && wsmZone == 1 ==> ews == (1.0 - apcb1 / 100.0) * c2)
            && (athcnora && wsmZone == 2 ==> ews == (1.0 - apcb2 / 100.0) * c2)
            && (athcnora && wsmZone == 3 ==> ews == (1.0 - apcb3 / 100.0) * c2)
            && (athcnora && wsmZone == 4 ==> ews == (1.0 - apcb4 / 100.0) * c2)
            && (athcnora && wsmZone != 0 && !(1 <= wsmZone <= 4) ==> ews == 10000.0 * c2)
  {
  }
}

=== FILE: calendar.dfy ===
/** Calendar facts the daily simulation relies on: the Gregorian month length used by
    `calendar.monthrange`, the four-season classification of a month and the
    April-May late-dry-season window of the adaptive protocol. */
module Calendar {

  /** A calendar date as pandas hands it over: year, month 1..12, day of month. */
  datatype Date = Date(year: int, month: int, day: int)

  predicate ValidDate(d: Date) {
    1 <= d.month <= 12 && 1 <= d.day <= DaysInMonth(d.year, d.month)
  }

  /** Leap-year rule of the Gregorian calendar (Python's `calendar.isleap`). */
  predicate IsLeapYear(y: int) {
    y % 4 == 0 && (y % 100 != 0 || y % 400 == 0)
  }

  /** Number of days in a month, the second component of `calendar.monthrange`. */
  function DaysInMonth(y: int, m: int): (n: int)
    requires 1 <= m <= 12
    ensures 28 <= n <= 31
    ensures n == 31 <==> m in {1, 3, 5, 7, 8, 10, 12}
    ensures n == 30 <==> m in {4, 6, 9, 11}
    ensures m == 2 ==> (n == 29 <==> IsLeapYear(y))
  {
    if m == 2 then (if IsLeapYear(y) then 29 else 28)
    else if m == 4 || m == 6 || m == 9 || m == 11 then 30
    else 31
  }

  /** Season class of a month: 2 for March-May, 3 for June-July, 4 for August-October
      and 1 for every other value (November-February, and anything out of range). */
  function Season(month: int): (s: int)
    ensures 1 <= s <= 4
    ensures s == 2 <==> month in {3, 4, 5}
    ensures s == 3 <==> month in {6, 7}
    ensures s == 4 <==> month in {8, 9, 10}
    ensures s == 1 <==> month < 3 || month > 10
  {
    if 2 < month < 6 then 2
    else if 5 < month < 8 then 3
    else if 7 < month < 11 then 4
    else 1
  }

  /** Fills the per-day `Daily_Seasons` and `Mon` arrays from the months of the
      simulated dates, one slot per date. */
  method DetermineSeasons(dates: seq<Date>) returns (seasons: seq<int>, mon: seq<int>)
    ensures |seasons| == |dates| && |mon| == |dates|
    ensures forall k :: 0 <= k < |dates| ==> seasons[k] == Season(dates[k].month)
    ensures forall k :: 0 <= k < |dates| ==> mon[k] == dates[k].month
    ensures forall k :: 0 <= k < |dates| ==> 1 <= seasons[k] <= 4
  {
    seasons := seq(|dates|, _ => 0);
    mon := seq(|dates|, _ => 0);
    var i := 0;
    while i < |dates|
      invariant 0 <= i <= |dates|
      invariant |seasons| == |dates| && |mon| == |dates|
      invariant forall k :: 0 <= k < i ==> seasons[k] == Season(dates[k].month)
      invariant forall k :: 0 <= k < i ==> mon[k] == dates[k].month
    {
      var month := dates[i].month;
      seasons := seasons[i := Season(month)];
      mon := mon[i := month];
      i := i + 1;
    }
  }

  /** The late dry season of the adaptive protocol: the months strictly between March
      and June. */
  predicate LateDrySeason(month: int) {
    3 < month < 6
  }

  /** The `Late_Dry_Season` column of the adaptive-protocol frame: one flag per date. */
  function LateDrySeasonColumn(dates: seq<Date>): (flags: seq<bool>)
    ensures |flags| == |dates|
    ensures forall k :: 0 <= k < |dates| ==> (flags[k] <==> dates[k].month in {4, 5})
  {
    seq(|dates|, k requires 0 <= k < |dates| => LateDrySeason(dates[k].month))
  }

  /** The day after a valid date. */
  function NextDay(d: Date): (n: Date)
    requires ValidDate(d)
    ensures ValidDate(n)
    ensures n.month != d.month || n.day != d.day
    ensures n.year == d.year || (n.year == d.year + 1 && n.month == 1 && n.day == 1)
  {
    if d.day < DaysInMonth(d.year, d.month) then Date(d.year, d.month, d.day + 1)
    else if d.month < 12 then Date(d.year, d.month + 1, 1)
    else Date(d.year + 1, 1, 1)
  }

  /** Days in the months of year `y` before month `m`. */
  function DaysBeforeMonth(y: int, m: int): (n: int)
    requires 1 <= m <= 12
    ensures 28 * (m - 1) <= n <= 31 * (m - 1)
  {
    if m == 1 then 0 else DaysBeforeMonth(y, m - 1) + DaysInMonth(y, m - 1)
  }

  /** Days in the years before `y`, counting from year 1 (the proleptic Gregorian calendar
      of Python's `date.toordinal`). */
  function DaysBeforeYear(y: int): int
    requires y >= 1
  {
    var p := y - 1;
    p * 365 + p / 4 - p / 100 + p / 400
  }

  /** Day number of a date, 1 for 0001-01-01. */
  function Ordinal(d: Date): int
    requires d.year >= 1 && 1 <= d.month <= 12
  {
    DaysBeforeYear(d.year) + DaysBeforeMonth(d.year, d.month) + d.day
  }

  lemma {:induction false} DaysInYear(y: int)
    ensures DaysBeforeMonth(y, 12) + 31 == if IsLeapYear(y) then 366 else 365
  {
    var feb := DaysInMonth(y, 2);
    assert DaysBeforeMonth(y, 2) == 31;
    assert DaysBeforeMonth(y, 3) == 31 + feb;
    assert DaysBeforeMonth(y, 4) == 62 + feb;
    assert DaysBeforeMonth(y, 5) == 92 + feb;
    assert DaysBeforeMonth(y, 6) == 123 + feb;
    assert DaysBeforeMonth(y, 7) == 153 + feb;
    assert DaysBeforeMonth(y, 8) == 184 + feb;
    assert DaysBeforeMonth(y, 9) == 215 + feb;
    assert DaysBeforeMonth(y, 10) == 245 + feb;
    assert DaysBeforeMonth(y, 11) == 276 + feb;
    assert DaysBeforeMonth(y, 12) == 306 + feb;
  }

  lemma {:induction false} NextYearStart(y: int)
    requires y >= 1
    ensures DaysBeforeYear(y + 1) == DaysBeforeYear(y) + (if IsLeapYear(y) then 366 else 365)
  {
    StepsOver(y, 4);
    StepsOver(y, 100);
    StepsOver(y, 400);
  }

  /** Going from `y - 1` to `y` crosses a multiple of `m` exactly when `y` is one. */
  lemma StepsOver(y: int, m: int)
    requires m in {4, 100, 400}
    ensures y / m - (y - 1) / m == if y % m == 0 then 1 else 0
  {
  }

  /** The day after a date is the next day number. */
  lemma NextDayOrdinal(d: Date)
    requires ValidDate(d) && d.year >= 1
    ensures Ordinal(NextDay(d)) == Ordinal(d) + 1
  {
    if d.day == DaysInMonth(d.year, d.month) && d.month == 12 {
      DaysInYear(d.year);
      NextYearStart(d.year);
    }
  }

  /** The date `k` days after `d`. */
  function AddDays(d: Date, k: nat): (r: Date)
    requires ValidDate(d)
    ensures ValidDate(r) && r.year >= d.year
  {
    if k == 0 then d else NextDay(AddDays(d, k - 1))
  }

  lemma {:induction false} AddDaysOrdinal(d: Date, k: nat)
    requires ValidDate(d) && d.year >= 1
    ensures Ordinal(AddDays(d, k)) == Ordinal(d) + k
  {
    if k > 0 {
      AddDaysOrdinal(d, k - 1);
      NextDayOrdinal(AddDays(d, k - 1));
    }
  }
}

=== FILE: daily_step.dfy ===
/** The closed-form steps of one simulated day of the lake model: the LOSA supply
    bookkeeping, the weekly-to-daily demand table, the decision-tree branch codes, the pulse
    table and look-back reads, the clamps and caps on regulatory releases, the parametric
    S-308/S-77 release rule, the storage change and the monthly basin-runoff table.

    Flows are in cfs, volumes in acre-feet; one cfs held for a day is 1.9835 acre-feet. */
module DailyStep {
  import opened Outcome
  import opened Calendar

  /** Acre-feet carried by one cfs over one day. */
  const CfsDay: real := 1.9835

  /** Reasons a daily step raises in the original. */
  datatype StepError =
    | UnboundDayCount             // the first date is not an anniversary of the start date
    | WeekOutsideTable(week: int) // the weekly demand table has no row for that week
    | PulseRowMissing(row: int)   // the pulse table has no row with that label
    | IndexOutOfBounds(k: int)    // a numpy index below -n or at or past n

  // ---------------------------------------------------------------------------
  // LOSA supply bookkeeping.

  /** Net inflow left to the lake after the LOSA supply is taken out. */
  function NiSupply(netInflow: real, losaSupply: real): (ni: real)
    ensures ni + losaSupply == netInflow
    ensures losaSupply >= 0.0 ==> ni <= netInflow
  {
    netInflow - losaSupply
  }

  /** The part of the LOSA demand that the supply does not cover. */
  function Cutback(demand: real, supply: real): (cut: real)
    ensures cut + supply == demand
    ensures supply <= demand <==> cut >= 0.0
  {
    demand - supply
  }

  /** Demand not supplied, in percent of the demand; zero when there is no demand. */
  function DemandNotSupplied(demand: real, cutback: real): (pct: real)
    ensures demand == 0.0 ==> pct == 0.0
    ensures demand != 0.0 ==> pct * demand == cutback * 100.0
  {
    if demand == 0.0 then 0.0 else (cutback / demand) * 100.0
  }

  /** A supply between nothing and the full demand leaves between 0 and 100 percent of the
      demand unsupplied: 0 exactly when the demand is met, 100 exactly when nothing is
      supplied. */
  lemma ShortfallPercentRange(demand: real, supply: real)
    requires 0.0 <= supply <= demand && demand > 0.0
    ensures var pct := DemandNotSupplied(demand, Cutback(demand, supply));
            && 0.0 <= pct <= 100.0
            && (pct == 0.0 <==> supply == demand)
            && (pct == 100.0 <==> supply == 0.0)
  {
  }

  // ---------------------------------------------------------------------------
  // The weekly-to-daily demand table.

  /** `d` falls on the same month and day as the start date (any year). */
  predicate Anniversary(d: Date, start: Date) {
    d.month == start.month && d.day == start.day
  }

  /** Days since the most recent anniversary, for a run whose first date is one. */
  function CountsSince(dates: seq<Date>, start: Date): (counts: seq<int>)
    requires |dates| > 0 ==> Anniversary(dates[0], start)
    ensures |counts| == |dates|
    ensures forall k :: 0 <= k < |dates| ==> counts[k] >= 0
    ensures forall k :: 0 <= k < |dates| && Anniversary(dates[k], start) ==> counts[k] == 0
    ensures forall k :: 0 < k < |dates| && !Anniversary(dates[k], start) ==> counts[k] == counts[k - 1] + 1
  {
    if |dates| == 0 then []
    else
      var p := CountsSince(dates[..|dates| - 1], start);
      var last := dates[|dates| - 1];
      p + [if Anniversary(last, start) || |p| == 0 then 0 else p[|p| - 1] + 1]
  }

  /** The day counter of the demand table. The counter is reset to 0 on every anniversary
      of the start date and counts up otherwise; when the first date is not an anniversary
      the counter was never bound and the original raises. */
  function DayCounts(dates: seq<Date>, start: Date): (r: Result<seq<int>, StepError>)
    ensures r.Ok? <==> |dates| == 0 || Anniversary(dates[0], start)
    ensures r.Fail? ==> r.error == UnboundDayCount
    ensures r.Ok? ==> |r.value| == |dates|
  {
    if |dates| > 0 && !Anniversary(dates[0], start) then Fail(UnboundDayCount)
    else Ok(CountsSince(dates, start))
  }

  /** Index of the last anniversary at or before `k` (there is one at 0). */
  function LastReset(dates: seq<Date>, start: Date, k: nat): (j: nat)
    requires k < |dates| && Anniversary(dates[0], start)
    ensures j <= k && Anniversary(dates[j], start)
    ensures forall m :: j < m <= k ==> !Anniversary(dates[m], start)
  {
    if Anniversary(dates[k], start) then k else LastReset(dates, start, k - 1)
  }

  /** The counter is the distance to the most recent anniversary. */
  lemma {:induction false} CountIsDaysSinceReset(dates: seq<Date>, start: Date, k: nat)
    requires k < |dates| && Anniversary(dates[0], start)
    ensures CountsSince(dates, start)[k] == k - LastReset(dates, start, k)
    decreases k
  {
    var counts := CountsSince(dates, start);
    if !Anniversary(dates[k], start) {
      CountIsDaysSinceReset(dates, start, k - 1);
    }
  }

  /** A run whose dates start on the start date always binds the counter. */
  lemma RunFromStartBindsCounter(dates: seq<Date>, start: Date)
    requires |dates| > 0 && dates[0] == start
    ensures DayCounts(dates, start).Ok?
    ensures DayCounts(dates, start).value[0] == 0
  {
  }

  /** Week of the demand year (1..52): day 0-6 is week 1, and days past 363 stay in week 52. */
  function WeekNumber(count: int): (w: int)
    requires count >= 0
    ensures 1 <= w <= 52
    ensures count <= 363 ==> (w - 1) * 7 <= count < w * 7
    ensures count > 363 ==> w == 52
  {
    if count > 363 then 52 else count / 7 + 1
  }

  /** Daily LOSA demand: the week's demand spread over seven days and scaled by the
      multiplier percentage. A week past the end of the table raises. */
  function DailyDemand(week: int, weekly: seq<real>, multiplier: real): (r: Result<real, StepError>)
    ensures r.Ok? <==> 1 <= week <= |weekly|
    ensures r.Fail? ==> r.error == WeekOutsideTable(week)
    ensures r.Ok? ==> r.value * 7.0 * 100.0 == weekly[week - 1] * multiplier
  {
    if 1 <= week <= |weekly| then Ok((weekly[week - 1] / 7.0) * (multiplier / 100.0))
    else Fail(WeekOutsideTable(week))
  }

  /** Daily demands for a run of day counts, row by row; the first week missing from the
      table raises. */
  function DemandsFor(counts: seq<int>, weekly: seq<real>, multiplier: real): (r: Result<seq<real>, StepError>)
    requires forall k :: 0 <= k < |counts| ==> counts[k] >= 0
    ensures r.Ok? <==> forall k :: 0 <= k < |counts| ==> WeekNumber(counts[k]) <= |weekly|
    ensures r.Ok? ==> |r.value| == |counts|
    ensures r.Ok? ==> forall k :: 0 <= k < |counts| ==>
              r.value[k] == DailyDemand(WeekNumber(counts[k]), weekly, multiplier).value
  {
    if |counts| == 0 then Ok([])
    else
      match DailyDemand(WeekNumber(counts[0]), weekly, multiplier)
      case Fail(e) => Fail(e)
      case Ok(d) =>
        match DemandsFor(counts[1..], weekly, multiplier)
        case Fail(e) =>
          assert exists k :: 1 <= k < |counts| && WeekNumber(counts[k]) > |weekly| by {
            var j :| 0 <= j < |counts[1..]| && WeekNumber(counts[1..][j]) > |weekly|;
            assert counts[j + 1] == counts[1..][j];
          }
          Fail(e)
        case Ok(rest) =>
          var out := [d] + rest;
          assert forall k :: 1 <= k < |counts| ==> out[k] == rest[k - 1] && counts[k] == counts[1..][k - 1];
          Ok(out)
  }

  /** The daily demand column of the simulated dates: the day counter, its week of the
      demand year and that week's demand per day. */
  function DailyDemandColumn(dates: seq<Date>, start: Date, weekly: seq<real>, multiplier: real)
    : (r: Result<seq<real>, StepError>)
    ensures |dates| > 0 && !Anniversary(dates[0], start) ==> r == Fail(UnboundDayCount)
    ensures |weekly| >= 52 && (|dates| > 0 ==> Anniversary(dates[0], start)) ==> r.Ok?
    ensures r.Ok? ==> |r.value| == |dates| && (|dates| > 0 ==> Anniversary(dates[0], start))
    ensures r.Ok? ==> forall k :: 0 <= k < |dates| ==>
              WeekNumber(CountsSince(dates, start)[k]) <= |weekly| &&
              r.value[k] == DailyDemand(WeekNumber(CountsSince(dates, start)[k]), weekly, multiplier).value
  {
    match DayCounts(dates, start)
    case Fail(e) => Fail(e)
    case Ok(counts) => DemandsFor(counts, weekly, multiplier)
  }

  /** A run that starts on the start date with a full 52-week table always has a demand
      column, and its first day takes the first week's demand. */
  lemma FullTableDemand(dates: seq<Date>, start: Date, weekly: seq<real>, multiplier: real)
    requires |weekly| >= 52 && |dates| > 0 && dates[0] == start
    ensures DailyDemandColumn(dates, start, weekly, multiplier).Ok?
    ensures DailyDemandColumn(dates, start, weekly, multiplier).value[0] * 700.0 == weekly[0] * multiplier
  {
    assert CountsSince(dates, start)[0] == 0;
  }

  // ---------------------------------------------------------------------------
  // Decision-tree branch codes.

  /** Four decision digits folded into one base-10 code, most significant first. Zone D
      folds the tributary, stage, seasonal and multi-seasonal classes; zone C the
      tributary class, meteorological forecast, seasonal and multi-seasonal classes; zone B
      the tributary and stage classes, the LONINO forecast class and the seasonal class. */
  function BranchCode(d3: int, d2: int, d1: int, d0: int): (code: int)
    ensures 0 <= d3 <= 9 && 0 <= d2 <= 9 && 0 <= d1 <= 9 && 0 <= d0 <= 9 ==> 0 <= code <= 9999
  {
    d3 * 1000 + d2 * 100 + d1 * 10 + d0 * 1
  }

  /** The digit in decimal place `p` (0 for units) of a non-negative code. */
  function Digit(code: int, p: nat): (d: int)
    requires code >= 0
    ensures 0 <= d <= 9
  {
    if p == 0 then code % 10 else Digit(code / 10, p - 1)
  }

  /** A branch code of single digits decodes back to its digits, so distinct branches get
      distinct codes. */
  lemma {:induction false} BranchCodeDigits(d3: int, d2: int, d1: int, d0: int)
    requires 0 <= d3 <= 9 && 0 <= d2 <= 9 && 0 <= d1 <= 9 && 0 <= d0 <= 9
    ensures var code := BranchCode(d3, d2, d1, d0);
            Digit(code, 3) == d3 && Digit(code, 2) == d2 && Digit(code, 1) == d1 && Digit(code, 0) == d0
  {
    var code := BranchCode(d3, d2, d1, d0);
    var c1, c2, c3 := code / 10, code / 10 / 10, code / 10 / 10 / 10;
    assert c1 == d3 * 100 + d2 * 10 + d1;
    assert c2 == d3 * 10 + d2;
    assert c3 == d3;
    assert Digit(code, 1) == Digit(c1, 0);
    assert Digit(code, 2) == Digit(c1, 1) == Digit(c2, 0);
    assert Digit(code, 3) == Digit(c1, 2) == Digit(c2, 1) == Digit(c3, 0);
  }

  lemma BranchCodeInjective(a3: int, a2: int, a1: int, a0: int, b3: int, b2: int, b1: int, b0: int)
    requires 0 <= a3 <= 9 && 0 <= a2 <= 9 && 0 <= a1 <= 9 && 0 <= a0 <= 9
    requires 0 <= b3 <= 9 && 0 <= b2 <= 9 && 0 <= b1 <= 9 && 0 <= b0 <= 9
    requires BranchCode(a3, a2, a1, a0) == BranchCode(b3, b2, b1, b0)
    ensures a3 == b3 && a2 == b2 && a1 == b1 && a0 == b0
  {
  }

  // ---------------------------------------------------------------------------
  // Pulse table and look-back reads.

  /** Row of the pulse table for a pulse day: the day before it, and the last row when
      that would be negative (pulse day 0 or below). */
  function PulseRow(plsDay: int, pulseLen: nat): (row: int)
    ensures plsDay >= 1 ==> row == plsDay - 1
    ensures plsDay <= 0 ==> row == pulseLen - 1
  {
    if plsDay - 1 >= 0 then plsDay - 1 else pulseLen - 1
  }

  /** Every pulse day up to the table length reads a row of a non-empty table, and day 0
      wraps round to the last row. */
  lemma PulseRowInTable(plsDay: int, pulseLen: nat)
    requires pulseLen > 0 && plsDay <= pulseLen
    ensures 0 <= PulseRow(plsDay, pulseLen) < pulseLen
    ensures plsDay == 0 ==> PulseRow(plsDay, pulseLen) == pulseLen - 1
  {
  }

  /** Label lookup `table.at[row]` on a 0-based row index: a missing label raises. */
  function PulseLookup(table: seq<real>, plsDay: int): (r: Result<real, StepError>)
    ensures r.Ok? <==> plsDay <= |table| && (plsDay >= 1 || |table| > 0)
    ensures r.Ok? ==> r.value == table[PulseRow(plsDay, |table|)]
    ensures r.Fail? ==> r.error == PulseRowMissing(PulseRow(plsDay, |table|))
  {
    var row := PulseRow(plsDay, |table|);
    if 0 <= row < |table| then Ok(table[row]) else Fail(PulseRowMissing(row))
  }

  /** numpy integer indexing: a negative index counts from the end, anything below `-n`
      or at or past `n` raises. */
  function NumpyIndex(k: int, n: nat): (r: Result<nat, StepError>)
    ensures r.Ok? <==> -(n as int) <= k < n
    ensures r.Ok? ==> r.value < n && r.value % n == k % n
    ensures r.Ok? && k >= 0 ==> r.value == k
    ensures r.Fail? ==> r.error == IndexOutOfBounds(k)
  {
    if 0 <= k < n then Ok(k)
    else if -(n as int) <= k < 0 then Ok(k + n)
    else Fail(IndexOutOfBounds(k))
  }

  /** The multiplier `PlsDay` days back from step `i + 2`; a pulse day beyond `i + 2` wraps
      to the end of the array. */
  function MultLookback(mult: seq<real>, i: nat, plsDay: int): (r: Result<real, StepError>)
    ensures r.Ok? <==> -|mult| <= i + 2 - plsDay < |mult|
    ensures r.Ok? && plsDay <= i + 2 ==> r.value == mult[i + 2 - plsDay]
    ensures r.Ok? && plsDay > i + 2 ==> r.value == mult[|mult| + i + 2 - plsDay]
  {
    match NumpyIndex(i + 2 - plsDay, |mult|)
    case Fail(e) => Fail(e)
    case Ok(k) => Ok(mult[k])
  }

  /** A pulse day past the current step but short of the array length reads a slot ahead of
      the current step. */
  lemma WrappedLookbackReadsAhead(n: nat, i: nat, plsDay: int)
    requires i + 2 < plsDay < n
    ensures NumpyIndex(i + 2 - plsDay, n).Ok?
    ensures i + 2 < NumpyIndex(i + 2 - plsDay, n).value < n
  {
  }

  // ---------------------------------------------------------------------------
  // Clamps, caps and regulatory totals.

  /** Python's `max(0, x)`: `x` when it is positive, the integer 0 otherwise. */
  function ClampLow(x: real): (r: real)
    ensures r >= 0.0 && r >= x
    ensures r == 0.0 || r == x
  {
    if x > 0.0 then x else 0.0
  }

  /** The S-308 regulatory release that S-80 leaves to come from the lake: the S-80
      release less the C-44 basin runoff, never negative. */
  function Outlet2Usrg1(outlet2Dsrs: real, c44ro: real): (r: real)
    ensures r >= 0.0 && r + c44ro >= outlet2Dsrs
    ensures outlet2Dsrs > c44ro ==> r + c44ro == outlet2Dsrs
    ensures outlet2Dsrs <= c44ro ==> r == 0.0
  {
    ClampLow(outlet2Dsrs - c44ro)
  }

  /** Python's `min(cap, x)`: `x` when it is below the cap, the cap otherwise. */
  function RegCap(cap: real, multiplier: real, choice: real): (r: real)
    ensures r <= cap && r <= multiplier * choice
    ensures r == cap || r == multiplier * choice
  {
    var x := multiplier * choice;
    if x < cap then x else cap
  }

  /** The capped southward release grows with the chosen release and reaches the cap only
      when the scaled choice does. */
  lemma RegCapMonotone(cap: real, multiplier: real, c1: real, c2: real)
    requires multiplier >= 0.0 && c1 <= c2
    ensures RegCap(cap, multiplier, c1) <= RegCap(cap, multiplier, c2)
    ensures multiplier * c2 <= cap ==> RegCap(cap, multiplier, c2) == multiplier * c2
  {
  }

  /** Two outlet flows (cfs) as one daily volume (acre-feet): the east-west volume from the
      S-77 and S-308 releases, and the southward volume from the capped WCA and L-8/C-51
      releases. */
  function TotalRegulatory(q1: real, q2: real): (v: real)
    ensures q1 >= 0.0 && q2 >= 0.0 ==> v >= 0.0
    ensures v == CfsDay * q1 + CfsDay * q2
  {
    (q1 + q2) * CfsDay
  }

  /** The southward volume never exceeds the two caps together. */
  lemma TotRegSoBelowCaps(capWca: real, multWca: real, chooseWca: real,
                          capL8: real, multL8: real, chooseL8: real)
    ensures TotalRegulatory(RegCap(capWca, multWca, chooseWca), RegCap(capL8, multL8, chooseL8))
            <= CfsDay * capWca + CfsDay * capL8
  {
  }

  // ---------------------------------------------------------------------------
  // The parametric release rule of simulation types other than 0.

  /** Ceiling release (cfs) at S-308 and at S-77 when the lake stage reaches 18 ft. */
  const S308Ceiling: real := 7200.0
  const S77Ceiling: real := 7800.0

  /** November through April use the first trigger parameter. */
  predicate DryHalf(month: int) {
    month in [1, 2, 3, 4, 11, 12]
  }

  predicate WetHalf(month: int) {
    month in [5, 6, 7, 8, 9, 10]
  }

  /** The release: the ceiling at or above 18 ft, nothing at or below 8 ft, and otherwise
      the month's design release when the phosphorus trigger is at or below the half-year's
      parameter. */
  function ParametricRelease(stage: real, month: int, tp: real, p1: real, p2: real,
                             dv: seq<real>, ceiling: real): (q: real)
    requires 1 <= month <= 12 && |dv| == 12
    ensures stage >= 18.0 ==> q == ceiling
    ensures stage < 18.0 && stage <= 8.0 ==> q == 0.0
    ensures 8.0 < stage < 18.0 ==>
              q == (if (month <= 4 || month >= 11) && tp <= p1 then dv[month - 1]
                    else if 5 <= month <= 10 && tp <= p2 then dv[month - 1]
                    else 0.0)
  {
    if stage >= 18.0 then ceiling
    else if stage <= 8.0 then 0.0
    else if tp <= p1 && DryHalf(month) then dv[month - 1]
    else if tp <= p2 && WetHalf(month) then dv[month - 1]
    else 0.0
  }

  /** S-308 under the parametric rule. */
  function S308Release(stage: real, month: int, tp: real, p1: real, p2: real, dv: seq<real>): (q: real)
    requires 1 <= month <= 12 && |dv| == 12
    ensures stage >= 18.0 ==> q == 7200.0
    ensures q == 0.0 || q == 7200.0 || q == dv[month - 1]
  {
    ParametricRelease(stage, month, tp, p1, p2, dv, S308Ceiling)
  }

  /** S-77 under the parametric rule. */
  function S77Release(stage: real, month: int, tp: real, p1: real, p2: real, dv: seq<real>): (q: real)
    requires 1 <= month <= 12 && |dv| == 12
    ensures stage >= 18.0 ==> q == 7800.0
    ensures q == 0.0 || q == 7800.0 || q == dv[month - 1]
  {
    ParametricRelease(stage, month, tp, p1, p2, dv, S77Ceiling)
  }

  /** The two half-years split the calendar, so exactly one trigger parameter governs each
      month, and a design table within the ceiling keeps every release within it. */
  lemma ParametricReleaseBounds(stage: real, month: int, tp: real, p1: real, p2: real,
                                dv: seq<real>, ceiling: real)
    requires 1 <= month <= 12 && |dv| == 12
    requires forall m :: 0 <= m < 12 ==> 0.0 <= dv[m] <= ceiling
    ensures DryHalf(month) != WetHalf(month)
    ensures 0.0 <= ParametricRelease(stage, month, tp, p1, p2, dv, ceiling) <= ceiling
  {
  }

  /** A lower phosphorus reading never lowers the release (the trigger parameter only
      switches the month's design release on). */
  lemma ParametricReleaseTriggerMonotone(stage: real, month: int, tp: real, tpLow: real, p1: real,
                                         p2: real, dv: seq<real>, ceiling: real)
    requires 1 <= month <= 12 && |dv| == 12 && tpLow <= tp && dv[month - 1] >= 0.0
    ensures ParametricRelease(stage, month, tp, p1, p2, dv, ceiling)
            <= ParametricRelease(stage, month, tpLow, p1, p2, dv, ceiling)
  {
  }

  // ---------------------------------------------------------------------------
  // Storage change.

  /** The day's water-balance terms (acre-feet unless marked cfs). */
  datatype Balance = Balance(
    niSupply: real,
    rf: real,
    et: real,
    outlet2Usbk: real,    // S-308 backflow, cfs
    outlet1Usbk: real,    // S-77 backflow, cfs
    wsaMia: real,         // water-supply augmentation from the Miami canal, cfs
    wsaNnr: real,         // water-supply augmentation from the North New River canal, cfs
    outlet1Usews: real,   // S-77 environmental water supply, cfs
    totRegEw: real,
    totRegSo: real,
    storageDev: real)

  /** Change in lake storage: net inflow, rain less evapotranspiration, inflows at the
      outlets and from the canals less the EWS release (converted from cfs), less both
      regulatory volumes, plus the storage deviation. */
  function DeltaStorage(b: Balance): (ds: real)
    ensures ds == (b.niSupply + b.rf + b.storageDev + CfsDay * (b.outlet2Usbk + b.outlet1Usbk + b.wsaMia + b.wsaNnr))
                  - (b.et + CfsDay * b.outlet1Usews + b.totRegEw + b.totRegSo)
  {
    b.niSupply + b.rf - b.et
    + 1.9835 * (b.outlet2Usbk + b.outlet1Usbk + b.wsaMia + b.wsaNnr - b.outlet1Usews)
    - b.totRegEw - b.totRegSo + b.storageDev
  }

  /** With every term zero the storage does not move. */
  lemma DeltaStorageAtRest()
    ensures DeltaStorage(Balance(0.0, 0.0, 0.0, 0.0, 0.0, 0.0, 0.0, 0.0, 0.0, 0.0, 0.0)) == 0.0
  {
  }

  /** Releasing `x` more cfs at S-77 under the parametric rule lowers the day's storage
      change by `1.9835 x` acre-feet; more net inflow raises it one for one. */
  lemma DeltaStorageResponse(b: Balance, s77: real, s308: real, x: real, y: real)
    ensures DeltaStorage(b.(totRegEw := TotalRegulatory(s77 + x, s308)))
            == DeltaStorage(b.(totRegEw := TotalRegulatory(s77, s308))) - CfsDay * x
    ensures DeltaStorage(b.(niSupply := b.niSupply + y)) == DeltaStorage(b) + y
  {
  }

  // ---------------------------------------------------------------------------
  // Monthly basin runoff against the outlet baseflows.

  /** One month of the basin-runoff table. */
  datatype RunoffRow = RunoffRow(
    ndays: int,
    c43ro: real,
    bsC43ro: real,      // S-77 baseflow the C-43 basin runoff leaves uncovered
    c44ro: real,
    bsC44ro: real,      // S-80 baseflow the C-44 basin runoff leaves uncovered
    sltrib: real,
    c44roSltrib: real,
    c44roBs: real)      // C-44 runoff above the S-80 baseflow, as a monthly volume (cfs-days)

  /** Baseflow that the runoff does not cover. */
  function Shortfall(baseflow: real, runoff: real): (s: real)
    ensures s >= 0.0 && s >= baseflow - runoff
    ensures s == 0.0 || s == baseflow - runoff
  {
    ClampLow(baseflow - runoff)
  }

  /** Runoff in excess of the baseflow over `ndays` days. */
  function Excess(runoff: real, baseflow: real, ndays: int): (x: real)
    requires ndays > 0
    ensures x >= 0.0
    ensures runoff <= baseflow ==> x == 0.0
  {
    ClampLow(runoff - baseflow) * (ndays as real)
  }

  /** Shortfall and excess are never both positive, and together they recover the gap
      between baseflow and runoff. */
  lemma ShortfallExcessSplit(baseflow: real, runoff: real, ndays: int)
    requires ndays > 0
    ensures Shortfall(baseflow, runoff) == 0.0 || Excess(runoff, baseflow, ndays) == 0.0
    ensures Shortfall(baseflow, runoff) - Excess(runoff, baseflow, ndays) / (ndays as real)
            == baseflow - runoff
  {
  }

  /** The basin-runoff table: one row per month start, the month length from the calendar
      and the four clamped columns from the two outlet baseflows. */
  function BasinRunoff(months: seq<Date>, c43ro: seq<real>, c44ro: seq<real>, sltrib: seq<real>,
                       outlet1Baseflow: real, outlet2Baseflow: real): (rows: seq<RunoffRow>)
    requires forall k :: 0 <= k < |months| ==> 1 <= months[k].month <= 12
    requires |c43ro| >= |months| && |c44ro| >= |months| && |sltrib| >= |months|
    ensures |rows| == |months|
    ensures forall k :: 0 <= k < |months| ==>
              && rows[k].ndays == DaysInMonth(months[k].year, months[k].month)
              && rows[k].bsC43ro >= 0.0 && rows[k].bsC44ro >= 0.0 && rows[k].c44roBs >= 0.0
              && rows[k].bsC43ro == Shortfall(outlet1Baseflow, c43ro[k])
              && rows[k].bsC44ro == Shortfall(outlet2Baseflow, c44ro[k])
              && rows[k].c44roSltrib == rows[k].bsC44ro + sltrib[k]
              && rows[k].c44roBs == Excess(c44ro[k], outlet2Baseflow, rows[k].ndays)
  {
    seq(|months|, k requires 0 <= k < |months| =>
      var nd := DaysInMonth(months[k].year, months[k].month);
      var bs44 := Shortfall(outlet2Baseflow, c44ro[k]);
      RunoffRow(nd, c43ro[k], Shortfall(outlet1Baseflow, c43ro[k]), c44ro[k], bs44, sltrib[k],
                bs44 + sltrib[k], Excess(c44ro[k], outlet2Baseflow, nd)))
  }
}

=== FILE: day_loop.dfy ===
/** The daily simulation loop and its index discipline.

    The model arrays have one slot per step: `n` steps for a run of `n - 1` days, the
    first step being the day before the start date. Iteration `i` runs for
    `i = 0 .. n - 3`. It reads slots `i`, `i + 1` and `i - 6` of the stage and storage,
    writes slot `i + 2` of the per-step arrays and slot `i` of the per-day adaptive-protocol
    columns. The collaborators that compute pulse days, release multipliers, the new
    storage and the stage of a step are passed in as functions; the stage rule sees the
    step as well as its storage, because it may replay the observed end-of-day stage of
    that step instead of converting the storage. */
module DayLoop {
  import opened Outcome
  import opened Calendar
  import opened ApRules
  import opened ThcChain
  import opened DailyStep

  /** The cell of the `DayFlags` array: unwritten, the first simulated day, the start of
      the current-schedule run, or a plain date. */
  datatype DayFlag = Unset | SimDay1 | CsStartDate | OnDate(date: Date)

  /** The flag stored in slot 2 before the loop starts, from the date of that step: the
      first simulated day when it falls on the start month and day, the start of the
      current-schedule run when it is that exact date, the date itself otherwise. */
  function InitialDayFlag(start: Date, begCs: Date, date2: Date): (f: DayFlag)
    ensures f == SimDay1 <==> date2.month == start.month && date2.day == start.day
    ensures f == CsStartDate <==> !(date2.month == start.month && date2.day == start.day) && date2 == begCs
    ensures f.OnDate? ==> f.date == date2
    ensures f != Unset
  {
    if start.month == date2.month && start.day == date2.day then SimDay1
    else if begCs.year == date2.year && begCs.month == date2.month && begCs.day == date2.day then CsStartDate
    else OnDate(date2)
  }

  /** The current-schedule start date equals the start date, and step 2 is the day after
      the start date, so the flag stored before the loop is always that plain date: neither
      of the two named flags can be produced. */
  lemma InitialFlagIsPlainDate(start: Date)
    requires ValidDate(start)
    ensures InitialDayFlag(start, start, NextDay(start)) == OnDate(NextDay(start))
  {
  }

  /** With the current-schedule start equal to the start date, the current-schedule flag is
      never produced whatever date step 2 carries. */
  lemma InitialFlagNeverCsStart(start: Date, date2: Date)
    ensures InitialDayFlag(start, start, date2) != CsStartDate
  {
  }

  /** The flag the loop writes to slot `i` for `i >= 3`: the first simulated day on the
      start month and day (in any year when the current-schedule flag is 0, otherwise only
      in the start year), the date itself otherwise. */
  function LoopDayFlag(start: Date, d: Date, csFlag: int): (f: DayFlag)
    ensures f == SimDay1 <==> start.month == d.month && start.day == d.day && (csFlag == 0 || start.year == d.year)
    ensures f != SimDay1 ==> f == OnDate(d)
  {
    if start.month == d.month && start.day == d.day && (csFlag == 0 || start.year == d.year) then SimDay1
    else OnDate(d)
  }

  /** The run-wide inputs of the loop. */
  datatype LoopEnv = LoopEnv(
    start: Date,
    begCs: Date,
    csFlag: int,
    dates: seq<Date>,          // date of each step, from the day before the start date
    begStage: real,            // stage of the two initial steps
    startStorage: real,        // the starting storage, handed to the storage rule on every step
    balances: seq<Balance>,    // water-balance terms of each step
    pulses: seq<real>,         // one column of the pulse table; every column has the same rows
    cfg: ApConfig,
    inp: ApInputs)             // adaptive-protocol inputs; the stage column is the simulated one

  /** The arrays the loop writes. */
  datatype LoopState = LoopState(
    dayFlags: seq<DayFlag>,
    plsDay: seq<int>,
    lakeStage: seq<real>,
    dh7: seq<real>,            // seven-day stage change
    mult: seq<real>,           // S-80 release multiplier
    multBack: seq<real>,       // the multiplier `PlsDay` steps back, as handed to the pulse rule
    dsto: seq<real>,
    storage: seq<real>,
    cols: ApColumns)

  datatype LoopError =
    | ShortRun
    | LookbackFailed(e: StepError)
    | PulseMissing(e: StepError)
    | ChainStopped(err: ApError)

  datatype LoopOutcome =
    | Finished(state: LoopState)
    | Stopped(step: nat, reason: LoopError)

  /** Every per-step array has `n` slots and the protocol columns `n - 1`. */
  predicate Sized(s: LoopState, n: nat) {
    && n >= 1 && |s.dayFlags| == n && |s.plsDay| == n && |s.lakeStage| == n && |s.dh7| == n
    && |s.mult| == n && |s.multBack| == n && |s.dsto| == n && |s.storage| == n
    && Shaped(s.cols) && Days(s.cols) == n - 1
  }

  predicate EnvSized(env: LoopEnv, n: nat) {
    n >= 1 && |env.dates| == n && |env.balances| == n && InputsSized(env.cfg, env.inp, n - 1)
  }

  /** The state before the first iteration: every array zero, the first two stages set to
      the starting stage, and slot 2 of the flags from its date. No storage is set: the
      starting storage reaches the run only as an argument of the storage rule. */
  function InitialState(env: LoopEnv, n: nat): (s: LoopState)
    requires EnvSized(env, n) && n >= 3
    ensures Sized(s, n)
    ensures s.dayFlags[2] == InitialDayFlag(env.start, env.begCs, env.dates[2])
    ensures forall k :: 0 <= k < n && k != 2 ==> s.dayFlags[k] == Unset
    ensures forall k :: 0 <= k < n ==> s.storage[k] == 0.0
    ensures s.lakeStage[0] == env.begStage && s.lakeStage[1] == env.begStage
    ensures forall k :: 2 <= k < n ==> s.lakeStage[k] == 0.0 && s.mult[k] == 0.0
    ensures forall k :: 0 <= k < n - 1 ==> s.cols.postApBaseflow[k] == 0.0 && s.cols.postApEws[k] == 0.0
  {
    var zeros := seq(n, _ => 0.0);
    var stage2 := seq(n, k => if k < 2 then env.begStage else 0.0);
    LoopState(seq(n, k => if k == 2 then InitialDayFlag(env.start, env.begCs, env.dates[2]) else Unset),
              seq(n, _ => 0), stage2, zeros, zeros, zeros, zeros, zeros, ZeroColumns(n - 1))
  }

  /** The protocol settings under which the chain runs to the end. */
  predicate ChainConfigOk(env: LoopEnv) {
    env.cfg.lowChance in env.inp.targStg && env.cfg.optSalFcast == 3 && env.cfg.optCeEwsLowsm in {0, 1, 2}
  }

  /** The protocol chain of day `i`, seen from the loop: it completes exactly under the
      settings that bind every rule, and touches slot `i` of its columns only. */
  method RunChain(cfg: ApConfig, i: nat, c: ApColumns, inp: ApInputs) returns (r: ChainOutcome)
    requires Shaped(c) && i < Days(c) && InputsCover(cfg, inp, i)
    ensures r.Completed? <==> cfg.lowChance in inp.targStg && cfg.optSalFcast == 3 && cfg.optCeEwsLowsm in {0, 1, 2}
    ensures Shaped(r.cols) && Days(r.cols) == Days(c) && SameExcept(c, r.cols, i)
  {
    r := ThcClass(cfg, i, c, inp);
  }

  /** What one successful iteration `i` does to the state, in the order of the original:
      the day flag of slot `i`, the pulse day from the flag in slot `i + 2`, the seven-day
      stage change, the S-80 multiplier and its look-back, the pulse-table row of the pulse
      day, the adaptive-protocol chain
      (which can only complete under the binding settings), the storage change, the
      storage and the stage. Nothing else changes. */
  predicate Stepped(env: LoopEnv, n: nat, s: LoopState, t: LoopState, i: nat,
                    plsDayFn: (DayFlag, nat) -> int, multFn: nat -> real,
                    storageFn: (DayFlag, real, real, real, real) -> real, stageFn: (real, nat) -> real)
    requires EnvSized(env, n) && Sized(s, n) && i + 2 < n
  {
    && Sized(t, n)
    && t.dayFlags == (if i >= 3 then s.dayFlags[i := LoopDayFlag(env.start, env.dates[i], env.csFlag)]
                      else s.dayFlags)
    && t.plsDay == s.plsDay[i + 2 := plsDayFn(s.dayFlags[i + 2], i)]
    && t.dh7 == (if i >= 6 then s.dh7[i + 1 := s.lakeStage[i + 1] - s.lakeStage[i - 6]] else s.dh7)
    && t.mult == s.mult[i + 2 := multFn(i)]
    && MultLookback(t.mult, i, t.plsDay[i + 2]).Ok?
    && t.multBack == s.multBack[i + 2 := MultLookback(t.mult, i, t.plsDay[i + 2]).value]
    && PulseLookup(env.pulses, t.plsDay[i + 2]).Ok?
    && ChainConfigOk(env)
    && SameExcept(s.cols, t.cols, i)
    && t.dsto == s.dsto[i + 2 := DeltaStorage(env.balances[i + 2])]
    && t.storage == s.storage[i + 2 := storageFn(s.dayFlags[i + 2], s.storage[i], env.startStorage,
                                                 s.storage[i + 1], DeltaStorage(env.balances[i + 2]))]
    && t.lakeStage == s.lakeStage[i + 2 := stageFn(t.storage[i + 2], i + 2)]
  }

  /** One iteration. A look-back outside the multiplier array, a pulse day with no row in
      the pulse table, or a chain that cannot complete stops the run with its cause. The
      S-80 and S-77 pulse columns share their rows, so the first lookup decides them all. */
  method Advance(env: LoopEnv, n: nat, s: LoopState, i: nat,
                 plsDayFn: (DayFlag, nat) -> int, multFn: nat -> real,
                 storageFn: (DayFlag, real, real, real, real) -> real, stageFn: (real, nat) -> real)
    returns (r: Result<LoopState, LoopError>)
    requires EnvSized(env, n) && Sized(s, n) && i + 2 < n
    ensures r.Ok? ==> Stepped(env, n, s, r.value, i, plsDayFn, multFn, storageFn, stageFn)
    ensures r.Fail? && r.error.LookbackFailed? ==>
              MultLookback(s.mult[i + 2 := multFn(i)], i, plsDayFn(s.dayFlags[i + 2], i)).Fail?
    ensures r.Fail? && r.error.PulseMissing? ==>
              PulseLookup(env.pulses, plsDayFn(s.dayFlags[i + 2], i)).Fail?
    ensures r.Fail? && r.error.ChainStopped? ==> !ChainConfigOk(env)
    ensures r.Fail? ==> r.error.LookbackFailed? || r.error.PulseMissing? || r.error.ChainStopped?
  {
    var flags := if i >= 3 then s.dayFlags[i := LoopDayFlag(env.start, env.dates[i], env.csFlag)] else s.dayFlags;
    var pls := s.plsDay[i + 2 := plsDayFn(flags[i + 2], i)];
    var dh7 := if i >= 6 then s.dh7[i + 1 := s.lakeStage[i + 1] - s.lakeStage[i - 6]] else s.dh7;
    var mult := s.mult[i + 2 := multFn(i)];
    var back := MultLookback(mult, i, pls[i + 2]);
    if back.Fail? {
      return Fail(LookbackFailed(back.error));
    }
    var pulse := PulseLookup(env.pulses, pls[i + 2]);
    if pulse.Fail? {
      return Fail(PulseMissing(pulse.error));
    }
    var inp := env.inp.(stageLo := s.lakeStage);
    SizedInputsCoverDay(env.cfg, inp, n - 1, i);
    var chain := RunChain(env.cfg, i, s.cols, inp);
    if chain.Aborted? {
      return Fail(ChainStopped(chain.err));
    }
    var ds := DeltaStorage(env.balances[i + 2]);
    var sto := storageFn(flags[i + 2], s.storage[i], env.startStorage, s.storage[i + 1], ds);
    r := Ok(LoopState(flags, pls, s.lakeStage[i + 2 := stageFn(sto, i + 2)], dh7, mult,
                      s.multBack[i + 2 := back.value], s.dsto[i + 2 := ds], s.storage[i + 2 := sto], chain.cols));
  }

  /** Every pulse day the rule can return keeps the look-back `i + 2 - PlsDay` of each
      iteration inside numpy's index range for an array of `n` slots. */
  ghost predicate PulseDaysInRange(n: nat, plsDayFn: (DayFlag, nat) -> int) {
    forall f: DayFlag, k: nat :: k + 2 < n ==> k + 2 - n < plsDayFn(f, k) <= k + 2 + n
  }

  /** A look-back that fails names a pulse day out of range. */
  lemma LookbackOutOfRange(n: nat, i: nat, mult: seq<real>, multFn: nat -> real,
                           plsDayFn: (DayFlag, nat) -> int, f: DayFlag)
    requires |mult| == n && i + 2 < n
    requires MultLookback(mult[i + 2 := multFn(i)], i, plsDayFn(f, i)).Fail?
    ensures !PulseDaysInRange(n, plsDayFn)
  {
  }

  /** Every pulse day the rule can return has a row in the pulse table. */
  ghost predicate PulseDaysInTable(n: nat, plsDayFn: (DayFlag, nat) -> int, pulses: seq<real>) {
    forall f: DayFlag, k: nat :: k + 2 < n ==> PulseLookup(pulses, plsDayFn(f, k)).Ok?
  }

  /** A pulse-table lookup that fails names a pulse day with no row. */
  lemma PulseOutOfTable(n: nat, i: nat, plsDayFn: (DayFlag, nat) -> int, pulses: seq<real>, f: DayFlag)
    requires i + 2 < n
    requires PulseLookup(pulses, plsDayFn(f, i)).Fail?
    ensures !PulseDaysInTable(n, plsDayFn, pulses)
  {
  }

  /** The run over `n` steps. It runs to the end unless the run is too short, the protocol
      settings leave the chain unbound, a pulse day sends the look-back out of range, or a
      pulse day has no row in the pulse table.
      When it finishes it has called the protocol chain once per iteration (the chain's
      guard always holds), and `flagReads[i]` is the day flag that iteration `i` handed to
      the pulse-day and storage rules. */
  method DailyLoop(env: LoopEnv, n: nat,
                   plsDayFn: (DayFlag, nat) -> int, multFn: nat -> real,
                   storageFn: (DayFlag, real, real, real, real) -> real, stageFn: (real, nat) -> real)
    returns (outcome: LoopOutcome, flagReads: seq<DayFlag>, apCalls: nat)
    requires EnvSized(env, n)
    ensures n < 3 <==> outcome == Stopped(0, ShortRun)
    ensures outcome.Stopped? && outcome.reason.ChainStopped? ==> outcome.step == 0
    ensures outcome.Stopped? ==> outcome.step + 2 < n || outcome.reason == ShortRun
    ensures outcome.Stopped? && outcome.reason.ChainStopped? ==> !ChainConfigOk(env)
    ensures outcome.Stopped? && outcome.reason.LookbackFailed? ==> !PulseDaysInRange(n, plsDayFn)
    ensures outcome.Stopped? && outcome.reason.PulseMissing? ==> !PulseDaysInTable(n, plsDayFn, env.pulses)
    ensures && n >= 3 && ChainConfigOk(env) && PulseDaysInRange(n, plsDayFn)
            && PulseDaysInTable(n, plsDayFn, env.pulses)
            ==> outcome.Finished?
    ensures outcome.Finished? ==>
              n >= 3 && FinishedRun(env, n, outcome.state, flagReads, apCalls, plsDayFn, multFn, storageFn, stageFn)
  {
    flagReads := [];
    apCalls := 0;
    if n < 3 {
      return Stopped(0, ShortRun), flagReads, apCalls;
    }
    var s := StartLoop(env, n, plsDayFn, multFn, storageFn, stageFn);
    var i := 0;
    while i < n - 2
      invariant LoopInv(env, n, s, flagReads, i, apCalls, plsDayFn, multFn, storageFn, stageFn)
    {
      var read := s.dayFlags[i + 2];
      var step := Advance(env, n, s, i, plsDayFn, multFn, storageFn, stageFn);
      if step.Fail? {
        if step.error.ChainStopped? && i > 0 {
          // the chain's outcome depends on the configuration alone, so it already failed at step 0
          assert false;
        }
        if step.error.LookbackFailed? {
          LookbackOutOfRange(n, i, s.mult, multFn, plsDayFn, s.dayFlags[i + 2]);
        }
        if step.error.PulseMissing? {
          PulseOutOfTable(n, i, plsDayFn, env.pulses, s.dayFlags[i + 2]);
        }
        return Stopped(i, step.error), flagReads, apCalls;
      }
      LoopStep(env, n, s, step.value, flagReads, i, apCalls, plsDayFn, multFn, storageFn, stageFn);
      flagReads := flagReads + [read];
      apCalls := apCalls + 1;
      s := step.value;
      i := i + 1;
    }
    LoopDone(env, n, s, flagReads, apCalls, plsDayFn, multFn, storageFn, stageFn);
    return Finished(s), flagReads, apCalls;
  }

  /** What a run that reaches the end of the loop has computed. */
  predicate FinishedRun(env: LoopEnv, n: nat, s: LoopState, flagReads: seq<DayFlag>, apCalls: nat,
                        plsDayFn: (DayFlag, nat) -> int, multFn: nat -> real,
                        storageFn: (DayFlag, real, real, real, real) -> real, stageFn: (real, nat) -> real)
    requires EnvSized(env, n) && n >= 3
  {
    && Sized(s, n)
    // the protocol guard `i < n - 2` held on every iteration
    && apCalls == n - 2
    // the flag read in iteration 0 is the one stored before the loop; every later
    // read looks at a slot the loop has not written yet
    && |flagReads| == n - 2
    && flagReads[0] == InitialDayFlag(env.start, env.begCs, env.dates[2])
    && (forall j :: 1 <= j < n - 2 ==> flagReads[j] == Unset)
    // slots 3 .. n - 3 carry the loop's flag; the last two are never written
    && (forall k :: 3 <= k < n - 2 ==> s.dayFlags[k] == LoopDayFlag(env.start, env.dates[k], env.csFlag))
    && (forall k :: 3 <= k < n && k >= n - 2 ==> s.dayFlags[k] == Unset)
    // the storage and stage recurrence
    && s.storage[0] == 0.0 && s.storage[1] == 0.0
    && s.lakeStage[0] == env.begStage && s.lakeStage[1] == env.begStage
    && (forall k :: 2 <= k < n ==>
          && s.dsto[k] == DeltaStorage(env.balances[k])
          && s.storage[k] == storageFn(flagReads[k - 2], s.storage[k - 2], env.startStorage,
                                       s.storage[k - 1], s.dsto[k])
          && s.lakeStage[k] == stageFn(s.storage[k], k))
    // the seven-day stage change, for every step it is written
    && (forall k :: 7 <= k < n - 1 ==> s.dh7[k] == s.lakeStage[k] - s.lakeStage[k - 7])
    // the pulse day of step `k` comes from the flag iteration `k - 2` read, two slots
    // ahead of the one it writes, has a row in the pulse table and keeps the look-back in
    // the array; the multiplier of every written step is the rule's
    && (forall k :: 2 <= k < n ==>
          && s.plsDay[k] == plsDayFn(flagReads[k - 2], k - 2)
          && PulseLookup(env.pulses, s.plsDay[k]).Ok?
          && k - n < s.plsDay[k] <= k + n
          && s.mult[k] == multFn(k - 2))
    && s.mult[0] == 0.0 && s.mult[1] == 0.0
    && LookbacksRead(s.mult, s.plsDay, s.multBack, n - 2)
    // the last protocol day is never computed
    && s.cols.postApBaseflow[n - 2] == 0.0 && s.cols.postApEws[n - 2] == 0.0
  }

  /** The state before the first iteration meets the loop invariant. */
  method StartLoop(env: LoopEnv, n: nat, plsDayFn: (DayFlag, nat) -> int, multFn: nat -> real,
                   storageFn: (DayFlag, real, real, real, real) -> real, stageFn: (real, nat) -> real)
    returns (s: LoopState)
    requires EnvSized(env, n) && n >= 3
    ensures LoopInv(env, n, s, [], 0, 0, plsDayFn, multFn, storageFn, stageFn)
  {
    s := InitialState(env, n);
  }

  /** The loop invariant: the state is sized, the chain has run once per finished
      iteration (and so its settings bind), and each group of arrays is as the groups below
      describe. */
  predicate LoopInv(env: LoopEnv, n: nat, s: LoopState, flagReads: seq<DayFlag>, i: nat, apCalls: nat,
                    plsDayFn: (DayFlag, nat) -> int, multFn: nat -> real,
                    storageFn: (DayFlag, real, real, real, real) -> real, stageFn: (real, nat) -> real)
    requires EnvSized(env, n) && n >= 3
  {
    && 0 <= i <= n - 2
    && Sized(s, n)
    && apCalls == i
    && (i > 0 ==> ChainConfigOk(env))
    && ReadsInv(env, flagReads, i)
    && FlagsInv(env, n, s, i)
    && StorageInv(env, n, s, flagReads, i, storageFn, stageFn)
    && Dh7Inv(n, s, i)
    && PlsInv(env, n, s, flagReads, i, plsDayFn)
    && MultInv(n, s, i, multFn)
    && LookbacksRead(s.mult, s.plsDay, s.multBack, i)
    && ApInv(n, s, i)
  }

  /** A successful iteration keeps the invariant. */
  lemma LoopStep(env: LoopEnv, n: nat, s: LoopState, t: LoopState, flagReads: seq<DayFlag>, i: nat,
                 apCalls: nat, plsDayFn: (DayFlag, nat) -> int, multFn: nat -> real,
                 storageFn: (DayFlag, real, real, real, real) -> real, stageFn: (real, nat) -> real)
    requires EnvSized(env, n) && n >= 3 && i < n - 2
    requires LoopInv(env, n, s, flagReads, i, apCalls, plsDayFn, multFn, storageFn, stageFn)
    requires Stepped(env, n, s, t, i, plsDayFn, multFn, storageFn, stageFn)
    ensures LoopInv(env, n, t, flagReads + [s.dayFlags[i + 2]], i + 1, apCalls + 1, plsDayFn, multFn,
                    storageFn, stageFn)
  {
    ReadsStep(env, n, s, flagReads, i);
    FlagsStep(env, n, s, t, i);
    StorageStep(env, n, s, t, flagReads, i, storageFn, stageFn);
    Dh7Step(n, s, t, i);
    PlsStep(env, n, s, t, flagReads, i, plsDayFn);
    MultStep(n, s, t, i, multFn);
    BackStep(s.mult, s.plsDay, s.multBack, t.mult, t.plsDay, t.multBack, i, multFn(i));
    ApStep(n, s, t, i);
  }

  /** The invariant at the end of the loop gives the finished run's contract. */
  lemma LoopDone(env: LoopEnv, n: nat, s: LoopState, flagReads: seq<DayFlag>, apCalls: nat,
                 plsDayFn: (DayFlag, nat) -> int, multFn: nat -> real,
                 storageFn: (DayFlag, real, real, real, real) -> real, stageFn: (real, nat) -> real)
    requires EnvSized(env, n) && n >= 3
    requires LoopInv(env, n, s, flagReads, n - 2, apCalls, plsDayFn, multFn, storageFn, stageFn)
    ensures FinishedRun(env, n, s, flagReads, apCalls, plsDayFn, multFn, storageFn, stageFn)
  {
  }

  // ---------------------------------------------------------------------------
  // The loop invariants, one group at a time, and the step that keeps each.

  /** The flags read so far: the stored one first, unwritten slots after it. */
  predicate ReadsInv(env: LoopEnv, flagReads: seq<DayFlag>, i: nat)
    requires |env.dates| >= 3
  {
    && |flagReads| == i
    && (i > 0 ==> flagReads[0] == InitialDayFlag(env.start, env.begCs, env.dates[2]))
    && (forall j :: 1 <= j < i ==> flagReads[j] == Unset)
  }

  /** Slot 2 holds the stored flag, slots 3 .. i - 1 the loop's, everything from `i` on
      (and from 3 on) is unwritten. */
  predicate FlagsInv(env: LoopEnv, n: nat, s: LoopState, i: nat)
    requires EnvSized(env, n) && Sized(s, n) && n >= 3
  {
    && s.dayFlags[2] == InitialDayFlag(env.start, env.begCs, env.dates[2])
    && (forall k :: 3 <= k < i && k < n ==> s.dayFlags[k] == LoopDayFlag(env.start, env.dates[k], env.csFlag))
    && (forall k :: 3 <= k < n && k >= i ==> s.dayFlags[k] == Unset)
  }

  predicate StorageInv(env: LoopEnv, n: nat, s: LoopState, flagReads: seq<DayFlag>, i: nat,
                       storageFn: (DayFlag, real, real, real, real) -> real, stageFn: (real, nat) -> real)
    requires EnvSized(env, n) && Sized(s, n) && |flagReads| == i && i + 2 <= n
  {
    && s.storage[0] == 0.0 && s.storage[1] == 0.0
    && s.lakeStage[0] == env.begStage && s.lakeStage[1] == env.begStage
    && (forall k :: 2 <= k < i + 2 ==>
          && s.dsto[k] == DeltaStorage(env.balances[k])
          && s.storage[k] == storageFn(flagReads[k - 2], s.storage[k - 2], env.startStorage,
                                       s.storage[k - 1], s.dsto[k])
          && s.lakeStage[k] == stageFn(s.storage[k], k))
  }

  predicate Dh7Inv(n: nat, s: LoopState, i: nat)
    requires Sized(s, n) && i + 1 <= n
  {
    forall k :: 7 <= k < i + 1 ==> s.dh7[k] == s.lakeStage[k] - s.lakeStage[k - 7]
  }

  /** The pulse day of every written step comes from the flag its iteration read, keeps
      the look-back in the array and has a row in the pulse table. */
  predicate PlsInv(env: LoopEnv, n: nat, s: LoopState, flagReads: seq<DayFlag>, i: nat,
                   plsDayFn: (DayFlag, nat) -> int)
    requires Sized(s, n) && |flagReads| == i && i + 2 <= n
  {
    forall k :: 2 <= k < i + 2 ==>
      && s.plsDay[k] == plsDayFn(flagReads[k - 2], k - 2)
      && PulseLookup(env.pulses, s.plsDay[k]).Ok?
      && k - n < s.plsDay[k] <= k + n
  }

  /** Written multiplier slots hold the rule's value and slots past the current step are
      unwritten zeros. */
  predicate MultInv(n: nat, s: LoopState, i: nat, multFn: nat -> real)
    requires Sized(s, n) && i + 2 <= n
  {
    && s.mult[0] == 0.0 && s.mult[1] == 0.0
    && (forall k :: 2 <= k < i + 2 ==> s.mult[k] == multFn(k - 2))
    && (forall k :: i + 2 <= k < n ==> s.mult[k] == 0.0)
  }

  /** What the look-backs of steps `2 .. i + 1` read. One that landed at or behind its
      step, directly or wrapped, read the multiplier that slot still holds; one that landed
      ahead of it, directly or wrapped, read a slot not yet written, so zero. */
  predicate LookbacksRead(mult: seq<real>, plsDay: seq<int>, multBack: seq<real>, i: nat)
    requires |plsDay| == |mult| && |multBack| == |mult| && i + 2 <= |mult|
  {
    var n := |mult|;
    && (forall k :: 2 <= k < i + 2 && 0 <= plsDay[k] <= k ==> multBack[k] == mult[k - plsDay[k]])
    && (forall k :: 2 <= k < i + 2 && n <= plsDay[k] <= k + n ==> multBack[k] == mult[n + k - plsDay[k]])
    && (forall k :: 2 <= k < i + 2 && (k - n < plsDay[k] < 0 || k < plsDay[k] < n) ==> multBack[k] == 0.0)
  }

  /** Protocol days from `i` on are still zero. */
  predicate ApInv(n: nat, s: LoopState, i: nat)
    requires Sized(s, n)
  {
    forall k :: i <= k < n - 1 ==> s.cols.postApBaseflow[k] == 0.0 && s.cols.postApEws[k] == 0.0
  }

  lemma ReadsStep(env: LoopEnv, n: nat, s: LoopState, flagReads: seq<DayFlag>, i: nat)
    requires EnvSized(env, n) && Sized(s, n) && n >= 3 && i + 2 < n
    requires ReadsInv(env, flagReads, i) && FlagsInv(env, n, s, i)
    ensures ReadsInv(env, flagReads + [s.dayFlags[i + 2]], i + 1)
  {
  }

  lemma FlagsStep(env: LoopEnv, n: nat, s: LoopState, t: LoopState, i: nat)
    requires EnvSized(env, n) && Sized(s, n) && Sized(t, n) && n >= 3 && i + 2 < n
    requires FlagsInv(env, n, s, i)
    requires t.dayFlags == if i >= 3 then s.dayFlags[i := LoopDayFlag(env.start, env.dates[i], env.csFlag)]
                           else s.dayFlags
    ensures FlagsInv(env, n, t, i + 1)
  {
  }

  lemma StorageStep(env: LoopEnv, n: nat, s: LoopState, t: LoopState, flagReads: seq<DayFlag>, i: nat,
                    storageFn: (DayFlag, real, real, real, real) -> real, stageFn: (real, nat) -> real)
    requires EnvSized(env, n) && Sized(s, n) && Sized(t, n) && |flagReads| == i && i + 2 < n
    requires StorageInv(env, n, s, flagReads, i, storageFn, stageFn)
    requires t.dsto == s.dsto[i + 2 := DeltaStorage(env.balances[i + 2])]
    requires t.storage == s.storage[i + 2 := storageFn(s.dayFlags[i + 2], s.storage[i], env.startStorage,
                                                       s.storage[i + 1], DeltaStorage(env.balances[i + 2]))]
    requires t.lakeStage == s.lakeStage[i + 2 := stageFn(t.storage[i + 2], i + 2)]
    ensures StorageInv(env, n, t, flagReads + [s.dayFlags[i + 2]], i + 1, storageFn, stageFn)
  {
  }

  lemma Dh7Step(n: nat, s: LoopState, t: LoopState, i: nat)
    requires Sized(s, n) && Sized(t, n) && i + 2 < n
    requires Dh7Inv(n, s, i)
    requires t.dh7 == if i >= 6 then s.dh7[i + 1 := s.lakeStage[i + 1] - s.lakeStage[i - 6]] else s.dh7
    requires forall k :: 0 <= k < i + 2 ==> t.lakeStage[k] == s.lakeStage[k]
    ensures Dh7Inv(n, t, i + 1)
  {
  }

  lemma PlsStep(env: LoopEnv, n: nat, s: LoopState, t: LoopState, flagReads: seq<DayFlag>, i: nat,
                plsDayFn: (DayFlag, nat) -> int)
    requires Sized(s, n) && Sized(t, n) && |flagReads| == i && i + 2 < n
    requires PlsInv(env, n, s, flagReads, i, plsDayFn)
    requires t.plsDay == s.plsDay[i + 2 := plsDayFn(s.dayFlags[i + 2], i)]
    requires MultLookback(t.mult, i, t.plsDay[i + 2]).Ok?
    requires PulseLookup(env.pulses, t.plsDay[i + 2]).Ok?
    ensures PlsInv(env, n, t, flagReads + [s.dayFlags[i + 2]], i + 1, plsDayFn)
  {
  }

  lemma MultStep(n: nat, s: LoopState, t: LoopState, i: nat, multFn: nat -> real)
    requires Sized(s, n) && Sized(t, n) && i + 2 < n
    requires MultInv(n, s, i, multFn)
    requires t.mult == s.mult[i + 2 := multFn(i)]
    ensures MultInv(n, t, i + 1, multFn)
  {
  }

  lemma BackStep(mult: seq<real>, plsDay: seq<int>, multBack: seq<real>,
                 mult': seq<real>, plsDay': seq<int>, multBack': seq<real>, i: nat, m: real)
    requires |plsDay| == |mult| && |multBack| == |mult| && i + 2 < |mult|
    requires forall k :: i + 2 <= k < |mult| ==> mult[k] == 0.0
    requires LookbacksRead(mult, plsDay, multBack, i)
    requires mult' == mult[i + 2 := m]
    requires |plsDay'| == |mult| && plsDay' == plsDay[i + 2 := plsDay'[i + 2]]
    requires MultLookback(mult', i, plsDay'[i + 2]).Ok?
    requires multBack' == multBack[i + 2 := MultLookback(mult', i, plsDay'[i + 2]).value]
    ensures LookbacksRead(mult', plsDay', multBack', i + 1)
  {
    LookbackSlot(mult', i, plsDay'[i + 2]);
    assert forall k :: 0 <= k < i + 2 ==> mult'[k] == mult[k];
  }

  /** Where the look-back of iteration `i` lands while the slots past `i + 2` are still
      zero: behind the step, wrapped behind it, or ahead of it on a zero. */
  lemma LookbackSlot(mult: seq<real>, i: nat, p: int)
    requires i + 2 < |mult| && MultLookback(mult, i, p).Ok?
    requires forall k :: i + 2 < k < |mult| ==> mult[k] == 0.0
    ensures 0 <= p <= i + 2 ==> MultLookback(mult, i, p).value == mult[i + 2 - p]
    ensures |mult| <= p ==> MultLookback(mult, i, p).value == mult[|mult| + i + 2 - p]
    ensures p < 0 || i + 2 < p < |mult| ==> MultLookback(mult, i, p).value == 0.0
  {
    if i + 2 < p < |mult| {
      WrappedLookbackReadsAhead(|mult|, i, p);
      assert MultLookback(mult, i, p).value == mult[|mult| + i + 2 - p];
    } else if p < 0 {
      assert MultLookback(mult, i, p).value == mult[i + 2 - p];
    }
  }

  lemma ApStep(n: nat, s: LoopState, t: LoopState, i: nat)
    requires Sized(s, n) && Sized(t, n) && i + 2 < n
    requires ApInv(n, s, i)
    requires SameExcept(s.cols, t.cols, i)
    ensures ApInv(n, t, i + 1)
  {
  }

  // ---------------------------------------------------------------------------
  // Storage bookkeeping under the recurrence.

  /** The sum of the storage changes of steps `2 .. k`. */
  function SumDsto(dsto: seq<real>, k: nat): real
    requires k < |dsto|
  {
    if k < 2 then 0.0 else SumDsto(dsto, k - 1) + dsto[k]
  }

  /** The storage rule that adds the day's change to the previous storage. */
  ghost predicate Accumulates(storageFn: (DayFlag, real, real, real, real) -> real) {
    forall f, before, start, prev, ds :: storageFn(f, before, start, prev, ds) == prev + ds
  }

  lemma AccumulatingStep(storageFn: (DayFlag, real, real, real, real) -> real, f: DayFlag, before: real,
                         start: real, prev: real, ds: real)
    requires Accumulates(storageFn)
    ensures storageFn(f, before, start, prev, ds) == prev + ds
  {
  }

  /** Under the accumulating rule the storage of every step of a finished run is the sum of
      the changes so far: the water balance closes, and since the two initial storages are
      never set, the starting storage does not appear in it. */
  lemma {:induction false} StorageTelescopes(env: LoopEnv, n: nat, s: LoopState, flagReads: seq<DayFlag>,
                                             apCalls: nat, plsDayFn: (DayFlag, nat) -> int, multFn: nat -> real,
                                             storageFn: (DayFlag, real, real, real, real) -> real,
                                             stageFn: (real, nat) -> real, k: nat)
    requires EnvSized(env, n) && n >= 3 && k < n
    requires FinishedRun(env, n, s, flagReads, apCalls, plsDayFn, multFn, storageFn, stageFn)
    requires Accumulates(storageFn)
    ensures s.storage[k] == SumDsto(s.dsto, k)
  {
    if k >= 2 {
      StorageTelescopes(env, n, s, flagReads, apCalls, plsDayFn, multFn, storageFn, stageFn, k - 1);
      var before := storageFn(flagReads[k - 2], s.storage[k - 2], env.startStorage, s.storage[k - 1], s.dsto[k]);
      assert s.storage[k] == before;
      AccumulatingStep(storageFn, flagReads[k - 2], s.storage[k - 2], env.startStorage, s.storage[k - 1], s.dsto[k]);
    }
  }

  /** With no net storage change on any step (as when every balance term is zero, see
      `DeltaStorageAtRest`), the accumulating rule keeps the storage of a finished run where
      it started, at zero, and each stage is the stage rule's value for that storage. */
  lemma StorageHeldWithoutFlows(env: LoopEnv, n: nat, s: LoopState, flagReads: seq<DayFlag>,
                                apCalls: nat, plsDayFn: (DayFlag, nat) -> int, multFn: nat -> real,
                                storageFn: (DayFlag, real, real, real, real) -> real, stageFn: (real, nat) -> real)
    requires EnvSized(env, n) && n >= 3
    requires FinishedRun(env, n, s, flagReads, apCalls, plsDayFn, multFn, storageFn, stageFn)
    requires Accumulates(storageFn)
    requires forall k :: 2 <= k < n ==> DeltaStorage(env.balances[k]) == 0.0
    ensures forall k :: 0 <= k < n ==> s.storage[k] == 0.0
    ensures forall k :: 2 <= k < n ==> s.lakeStage[k] == stageFn(0.0, k)
  {
    forall k | 0 <= k < n
      ensures s.storage[k] == 0.0
    {
      StorageTelescopes(env, n, s, flagReads, apCalls, plsDayFn, multFn, storageFn, stageFn, k);
      NoChangeSumsToZero(s.dsto, k);
    }
  }

  /** Zero changes sum to zero. */
  lemma {:induction false} NoChangeSumsToZero(dsto: seq<real>, k: nat)
    requires k < |dsto| && forall m :: 2 <= m <= k ==> dsto[m] == 0.0
    ensures SumDsto(dsto, k) == 0.0
  {
    if k >= 2 {
      NoChangeSumsToZero(dsto, k - 1);
    }
  }
}

=== FILE: model_variables.dfy ===
/** The state store of a run: every model array, created zero-filled with the length its
    time base gives it. Per-step arrays have one slot per step from the day before the
    start date to the end date; per-day arrays one slot per simulated day; the tributary
    classes one per Friday up to the end of the tributary-condition record; the LONINO
    arrays one per month start (at least one) and one per configured month. */
module ModelVariables {
  import opened Calendar
  import opened ThcChain

  /** The run dates and sizes the store reads from the settings. */
  datatype RunConfig = RunConfig(start: Date, end: Date, endTc: Date, monthN: nat)

  predicate UsableDate(d: Date) {
    ValidDate(d) && d.year >= 1
  }

  /** `len(pd.date_range(a, b, freq="D"))`: the days from `a` to `b` inclusive. */
  function DayCount(a: Date, b: Date): (n: nat)
    requires UsableDate(a) && UsableDate(b)
    ensures n > 0 <==> Ordinal(a) <= Ordinal(b)
    ensures n > 0 ==> n == Ordinal(b) - Ordinal(a) + 1
  {
    if Ordinal(b) < Ordinal(a) then 0 else Ordinal(b) - Ordinal(a) + 1
  }

  /** The month index of a date: consecutive months get consecutive indices. */
  function MonthIndex(d: Date): int {
    12 * d.year + d.month - 1
  }

  /** `len(pd.date_range(a, b, freq="MS"))`: the first days of months that lie in `a .. b`;
      the month of `a` counts only when `a` is its first day. */
  function MonthStarts(a: Date, b: Date): nat
    requires UsableDate(a) && UsableDate(b)
  {
    if Ordinal(b) < Ordinal(a) then 0
    else
      var k := MonthIndex(b) - MonthIndex(a) + (if a.day == 1 then 1 else 0);
      if k < 0 then 0 else k
  }

  /** `len(pd.date_range(a, b, freq="W-Fri"))`: the Fridays in `a .. b`. Day number 5 is a
      Friday (day 1, 0001-01-01, is a Monday). */
  function Fridays(a: Date, b: Date): nat
    requires UsableDate(a) && UsableDate(b)
  {
    if Ordinal(b) < Ordinal(a) then 0
    else
      var k := (Ordinal(b) - 5) / 7 - (Ordinal(a) - 6) / 7;
      if k < 0 then 0 else k
  }

  /** The Fridays among day numbers `lo .. hi`, counted one day at a time. */
  function FridaysBetween(lo: int, hi: int): (n: nat)
    decreases hi - lo
  {
    if hi < lo then 0 else FridaysBetween(lo, hi - 1) + (if hi % 7 == 5 then 1 else 0)
  }

  /** The closed form of `Fridays` counts exactly the days with the Friday day number. */
  lemma {:induction false} FridaysCounted(a: Date, b: Date)
    requires UsableDate(a) && UsableDate(b)
    ensures Fridays(a, b) == FridaysBetween(Ordinal(a), Ordinal(b))
  {
    if Ordinal(a) <= Ordinal(b) {
      FridaysClosedForm(Ordinal(a), Ordinal(b));
    }
  }

  lemma {:induction false} FridaysClosedForm(lo: int, hi: int)
    requires lo <= hi + 1
    ensures FridaysBetween(lo, hi) == (hi - 5) / 7 - (lo - 6) / 7
    decreases hi - lo
  {
    if hi >= lo {
      FridaysClosedForm(lo, hi - 1);
      assert (hi - 5) / 7 - (hi - 6) / 7 == (if hi % 7 == 5 then 1 else 0);
    }
  }

  /** Arrays with a slot per step. */
  const StepArrays: set<string> := {
    "Lake_Stage", "WSM_Zone", "Max_Supply", "LOSA_Supply", "Cut_back", "Dem_N_Sup", "NI_Supply",
    "Zone_Code", "LO_Zone", "DecTree_Relslevel", "DayFlags", "PlsDay", "Release_Level", "dh_7days",
    "ZoneCodeminus1Code", "ZoneCodeCode", "Fraction_of_Zone_height", "ReLevelCode_1",
    "ReLevelCode_2", "ReLevelCode_3_S80", "Outlet2DS_Mult", "Outlet2DS_Mult_2", "Outlet2DSRS",
    "Outlet2USRG1", "Sum_Outlet2USRG1", "Outlet2DSBS", "Outlet2USBK", "ROeast", "Outlet2USBS",
    "Sum_Outlet2USBK", "Outlet2USRG_Code", "Outlet2USRG", "Outlet2DS", "ReLevelCode_3_S77",
    "Outlet1US_Mult", "Outlet1US_Mult_2", "Outlet1USBSAP", "Outlet1USRS", "Sum_Outlet1USRS",
    "Outlet1USBK", "ROwest", "Outlet1DSBS", "Outlet1USBS", "Outlet1USEWS", "Outlet1USREG",
    "Outlet1DS", "TotRegEW", "Choose_WCA", "RegWCA", "Choose_L8C51", "RegL8C51", "TotRegSo",
    "Stage2ar", "Stage2marsh", "RF", "ET", "Choose_WSA_1", "Choose_WSA_2", "WSA_MIA", "WSA_NNR",
    "DSto", "Storage"
  }

  /** Arrays with a slot per simulated day: seasons and months, the stage percentiles, the
      decision-tree zones and the adaptive-protocol columns. */
  const DayArrays: set<string> := {
    "Daily_Seasons", "Mon", "V10per", "V20per", "V25per", "V30per", "V40per", "V45per", "V50per",
    "V60per", "Zone_D_Trib", "Zone_D_stage", "Zone_D_Seas", "Zone_D_MSeas", "Zone_D_Branch_Code",
    "Zone_D_Rel_Code", "Zone_C_Trib", "Zone_C_Seas", "Zone_C_MSeas", "Zone_C_MetFcast",
    "Zone_C_Branch_Code", "Zone_C_Rel_Code", "Zone_B_Trib", "Zone_B_Stage", "Zone_B_Seas",
    "Zone_B_Branch_Code", "Zone_B_Rel_Code"
  } + (set j | 0 <= j < |ApColumnNames| :: ApColumnNames[j])

  /** Tributary-condition classes, one slot per Friday. */
  const WeekArrays: set<string> := {
    "RF_Cls", "MainTrib_Cls", "Palmer_Cls", "NetInflow_Cls", "Max_RF_MainTrib", "Max_Palmer_NetInf"
  }

  /** LONINO classes, one slot per month start of the run. */
  const MonthArrays: set<string> := {"Seas", "M_Seas"}

  /** LONINO classes, one slot per configured month. */
  const ClassArrays: set<string> := {"LONINO_Seas_cls", "LONINO_M_Seas_cls"}

  /** A zero-filled array. */
  function Zeros(n: nat): (z: seq<real>)
    ensures |z| == n && forall k :: 0 <= k < n ==> z[k] == 0.0
  {
    seq(n, _ => 0.0)
  }

  /** A group of arrays sharing one length, every one of them all zeros. */
  predicate ZeroGroup(g: map<string, seq<real>>, names: set<string>, n: nat) {
    && g.Keys == names
    && (forall name :: name in g ==> |g[name]| == n)
    && (forall name, k :: name in g && 0 <= k < |g[name]| ==> g[name][k] == 0.0)
  }

  function ZeroGroupOf(names: set<string>, n: nat): (g: map<string, seq<real>>)
    ensures ZeroGroup(g, names, n)
  {
    map name | name in names :: Zeros(n)
  }

  /** The store after construction, its arrays grouped by the time base that sizes them. */
  datatype MVar = MVar(
    days: nat,
    nRows: nat,
    tcCount: nat,
    loninoCount: nat,
    monthN: nat,
    perStep: map<string, seq<real>>,
    perDay: map<string, seq<real>>,
    perWeek: map<string, seq<real>>,
    perMonthStart: map<string, seq<real>>,
    perClassMonth: map<string, seq<real>>)

  /** Builds the store. A forecast run covers sixteen days from `today`; any other run
      the configured start and end dates. The tributary classes always run to the
      configured end of the tributary record. */
  function NewModelVariables(cfg: RunConfig, forecast: bool, today: Date): (mv: MVar)
    requires UsableDate(cfg.endTc)
    requires forecast || (UsableDate(cfg.start) && UsableDate(cfg.end) && Ordinal(cfg.start) >= 2)
    requires !forecast || (UsableDate(today) && Ordinal(today) >= 2)
    ensures var start := if forecast then today else cfg.start;
            var end := if forecast then AddDays(today, 15) else cfg.end;
            && mv.days == DayCount(start, end)
            && mv.nRows == (if Ordinal(end) < Ordinal(start) - 1 then 0 else Ordinal(end) - Ordinal(start) + 2)
            && mv.tcCount == Fridays(start, cfg.endTc)
    ensures mv.loninoCount >= 1 && mv.monthN == cfg.monthN
    ensures ZeroGroup(mv.perStep, StepArrays, mv.nRows)
    ensures ZeroGroup(mv.perDay, DayArrays, mv.days)
    ensures ZeroGroup(mv.perWeek, WeekArrays, mv.tcCount)
    ensures ZeroGroup(mv.perMonthStart, MonthArrays, mv.loninoCount)
    ensures ZeroGroup(mv.perClassMonth, ClassArrays, mv.monthN)
  {
    var start := if forecast then today else cfg.start;
    var end := if forecast then AddDays(today, 15) else cfg.end;
    var days := DayCount(start, end);
    var nRows := if Ordinal(end) < Ordinal(start) - 1 then 0 else Ordinal(end) - Ordinal(start) + 2;
    var tc := Fridays(start, cfg.endTc);
    var monthStarts := MonthStarts(start, end);
    var lonino := if monthStarts == 0 then 1 else monthStarts;
    MVar(days, nRows, tc, lonino, cfg.monthN,
         ZeroGroupOf(StepArrays, nRows), ZeroGroupOf(DayArrays, days), ZeroGroupOf(WeekArrays, tc),
         ZeroGroupOf(MonthArrays, lonino), ZeroGroupOf(ClassArrays, cfg.monthN))
  }

  /** A run that ends no earlier than the day before it starts has one more step than it
      has days: the extra leading step is the day before the start date. */
  lemma StepsAreDaysPlusOne(cfg: RunConfig, today: Date)
    requires UsableDate(cfg.start) && UsableDate(cfg.end) && UsableDate(cfg.endTc)
    requires Ordinal(cfg.start) >= 2
    requires Ordinal(cfg.end) >= Ordinal(cfg.start) - 1
    ensures var mv := NewModelVariables(cfg, false, today);
            mv.nRows == mv.days + 1
  {
  }

  /** A forecast run has sixteen days and seventeen steps whatever the configured dates. */
  lemma {:induction false} ForecastRunSize(cfg: RunConfig, today: Date)
    requires UsableDate(cfg.endTc) && UsableDate(today) && Ordinal(today) >= 2
    ensures var mv := NewModelVariables(cfg, true, today);
            mv.days == 16 && mv.nRows == 17
  {
    AddDaysOrdinal(today, 15);
  }

  /** A forecast run never reads the configured start and end dates. */
  lemma ForecastIgnoresConfiguredDates(cfg: RunConfig, today: Date, start: Date, end: Date)
    requires UsableDate(cfg.endTc) && UsableDate(today) && Ordinal(today) >= 2
    ensures NewModelVariables(cfg, true, today) == NewModelVariables(cfg.(start := start, end := end), true, today)
  {
  }

  /** The store's thirty-one adaptive-protocol arrays, looked up by their Python names, are
      exactly the one-day chain's zero columns read as float64 arrays. */
  lemma StoreHoldsChainColumns(mv: MVar)
    requires ZeroGroup(mv.perDay, DayArrays, mv.days)
    ensures forall j :: 0 <= j < |ApColumnNames| ==>
              && ApColumnNames[j] in mv.perDay
              && RealFloats(mv.perDay[ApColumnNames[j]]) == ColumnFloats(ZeroColumns(mv.days), j)
  {
    forall j | 0 <= j < |ApColumnNames|
      ensures ApColumnNames[j] in mv.perDay
      ensures RealFloats(mv.perDay[ApColumnNames[j]]) == ColumnFloats(ZeroColumns(mv.days), j)
    {
      var name := ApColumnNames[j];
      assert name in DayArrays;
      assert mv.perDay[name] == seq(mv.days, _ => 0.0);
      ZeroColumnsAreFloatZeros(mv.days, j);
    }
  }
}

=== FILE: outcome.dfy ===
/** Success-or-failure values for the operations whose Python original can raise
    (an unbound local, a missing DataFrame column, an index past the end of a table).
    A raised exception ends the whole run, so the failure side only carries a reason. */
module Outcome {

  datatype Result<+T, +E> = Ok(value: T) | Fail(error: E) {

    predicate IsFailure() {
      Fail?
    }

    function PropagateFailure<U>(): Result<U, E>
      requires Fail?
    {
      Fail(error)
    }

    function Extract(): T
      requires Ok?
    {
      value
    }
  }
}

=== FILE: thc_chain.dfy ===
/** The adaptive-protocol rule chain for one day `i`: the rules of `ApRules` applied in
    their fixed order, each reading raw inputs at fixed offsets (`i`, `i+1`, `i+2`, and the
    salinity window `i..i+12`) and same-day values written earlier in the chain, and each
    writing slot `i` of its own output column.

    The Python original mutates thirty-one numpy arrays in place and can raise part-way
    through; the chain therefore returns the columns as far as they were written together
    with either the two values it hands back or the reason it stopped. */
module ThcChain {
  import opened Outcome
  import opened ApRules

  /** The run-wide protocol settings the original reads from a global settings module. */
  datatype ApConfig = ApConfig(
    thcThreshold: real,
    lowChance: int,               // percentile of the target-stage curve, also the column key
    optLChanceLine: int,
    optSalFcast: int,
    ceSalThreshold: real,
    lateDrySeasonOption: int,
    optNoApAboveBfSb: int,
    optCeEwsLowsm: int,
    optThcBypLateDs: int,
    apcb1: real, apcb2: real, apcb3: real, apcb4: real,   // cutback percentages, zones 1-4
    calEstEws: real)

  /** Everything the chain only reads. Per-day columns are indexed by day `i`; the
      per-step model arrays (`stageLo`, `zoneCode`, `wsmZone`, `s77rs`, `s77bs`) carry one
      leading initialisation row and are read at `i+1` or `i+2`. */
  datatype ApInputs = ApInputs(
    trib: seq<real>,                  // tributary hydrologic condition, per day
    month: seq<int>,                  // month of each simulated date
    lateDrySeason: seq<bool>,         // late-dry-season flag, per day
    stageLo: seq<real>,               // lake stage, per step
    zoneCode: seq<int>,               // regulation-schedule zone code, per step
    wsmZone: seq<int>,                // water-shortage zone, per step
    s77rs: seq<real>,                 // S-77 regulatory release, per step
    s77bs: seq<real>,                 // S-77 pre-protocol baseflow, per step
    wsm1: seq<real>,                  // first water-shortage line, per step
    targStg: map<int, seq<real>>,     // target-stage curves by percentile
    estuaryNeedsWater: seq<bool>,     // external estuary-needs-water flag, per day
    choose1: real)                    // cap on the baseflow inside the baseflow band

  /** The thirty-one output columns, in the order the chain writes them. */
  datatype ApColumns = ApColumns(
    thcNormalOrAbove: seq<bool>,
    lakeOStageAp: seq<real>,
    lakeOScheduleZone: seq<int>,
    lStgCorres: seq<real>,
    lowChanceCheck: seq<bool>,
    s77rsAp: seq<real>,
    s77bsAp: seq<real>,
    s77rsPreApS77Baseflow: seq<real>,
    forecastDSal: seq<Sal>,
    n30dMavg: seq<Sal>,
    n30davgForecast: seq<bool>,
    lors08BfRel: seq<bool>,
    ldsLc61: seq<bool>,
    switchO: seq<int>,
    all4: seq<bool>,
    sabf: seq<bool>,
    swbf: seq<bool>,
    swbu: seq<bool>,
    all4AndStage: seq<bool>,
    all4AndStageIn: seq<bool>,
    pApBfStg: seq<bool>,
    logicTest1: seq<bool>,
    postApBaseflow: seq<real>,
    s77rsPlusPreApS77Bsf: seq<bool>,
    andEstNeedsLakeWater: seq<bool>,
    andLowChance61: seq<bool>,
    athcnora: seq<bool>,
    choosePapEws1: seq<real>,
    choosePapEws2: seq<real>,
    postApEws: seq<real>,
    postApBaseflowEwsCfs: seq<real>)

  /** The two values the chain hands back to the daily loop. */
  datatype ThcOut = ThcOut(postApEws: real, postApBaseflow: real)

  datatype ChainOutcome =
    | Completed(cols: ApColumns, out: ThcOut)
    | Aborted(cols: ApColumns, err: ApError)

  function Days(c: ApColumns): nat {
    |c.thcNormalOrAbove|
  }

  /** Every column has one slot per simulated day. */
  predicate Shaped(c: ApColumns) {
    var d := Days(c);
    && |c.lakeOStageAp| == d && |c.lakeOScheduleZone| == d && |c.lStgCorres| == d
    && |c.lowChanceCheck| == d && |c.s77rsAp| == d && |c.s77bsAp| == d
    && |c.s77rsPreApS77Baseflow| == d && |c.forecastDSal| == d && |c.n30dMavg| == d
    && |c.n30davgForecast| == d && |c.lors08BfRel| == d && |c.ldsLc61| == d
    && |c.switchO| == d && |c.all4| == d && |c.sabf| == d && |c.swbf| == d && |c.swbu| == d
    && |c.all4AndStage| == d && |c.all4AndStageIn| == d && |c.pApBfStg| == d
    && |c.logicTest1| == d && |c.postApBaseflow| == d && |c.s77rsPlusPreApS77Bsf| == d
    && |c.andEstNeedsLakeWater| == d && |c.andLowChance61| == d && |c.athcnora| == d
    && |c.choosePapEws1| == d && |c.choosePapEws2| == d && |c.postApEws| == d
    && |c.postApBaseflowEwsCfs| == d
  }

  predicate AllFalse(s: seq<bool>) {
    forall k :: 0 <= k < |s| ==> !s[k]
  }

  predicate AllZero(s: seq<real>) {
    forall k :: 0 <= k < |s| ==> s[k] == 0.0
  }

  predicate AllZeroCodes(s: seq<int>) {
    forall k :: 0 <= k < |s| ==> s[k] == 0
  }

  predicate AllZeroPsu(s: seq<Sal>) {
    forall k :: 0 <= k < |s| ==> s[k] == Psu(0.0)
  }

  /** The columns as the state store creates them: `d` zero slots each (a zero in a
      flag column reads as false, in a salinity column as 0 psu). */
  function ZeroColumns(d: nat): (c: ApColumns)
    ensures Shaped(c) && Days(c) == d
    ensures AllFalse(c.thcNormalOrAbove) && AllZero(c.lakeOStageAp) && AllZeroCodes(c.lakeOScheduleZone)
    ensures AllZero(c.lStgCorres) && AllFalse(c.lowChanceCheck) && AllZero(c.s77rsAp) && AllZero(c.s77bsAp)
    ensures AllZero(c.s77rsPreApS77Baseflow) && AllZeroPsu(c.forecastDSal) && AllZeroPsu(c.n30dMavg)
    ensures AllFalse(c.n30davgForecast) && AllFalse(c.lors08BfRel) && AllFalse(c.ldsLc61)
    ensures AllZeroCodes(c.switchO) && AllFalse(c.all4) && AllFalse(c.sabf) && AllFalse(c.swbf) && AllFalse(c.swbu)
    ensures AllFalse(c.all4AndStage) && AllFalse(c.all4AndStageIn) && AllFalse(c.pApBfStg)
    ensures AllFalse(c.logicTest1) && AllZero(c.postApBaseflow) && AllFalse(c.s77rsPlusPreApS77Bsf)
    ensures AllFalse(c.andEstNeedsLakeWater) && AllFalse(c.andLowChance61) && AllFalse(c.athcnora)
    ensures AllZero(c.choosePapEws1) && AllZero(c.choosePapEws2) && AllZero(c.postApEws)
    ensures AllZero(c.postApBaseflowEwsCfs)
  {
    var b := seq(d, _ => false);
    var x := seq(d, _ => 0.0);
    var z := seq(d, _ => 0);
    var s := seq(d, _ => Psu(0.0));
    ApColumns(b, x, z, x, b, x, x, x, s, s, b, b, b, z, b, b, b, b, b, b, b, b, x, b, b, b, b, x, x, x, x)
  }

  /** The Python names of the thirty-one columns, in the order of `ApColumns`. */
  const ApColumnNames: seq<string> := [
    "THC_Class_normal_or_above", "Lake_O_Stage_AP", "Lake_O_Schedule_Zone", "LStgCorres",
    "LowChance_Check", "Outlet1USRS_AP", "Outlet1USBS_AP", "Outlet1USRS_Pre_AP_S77_Baseflow",
    "Forecast_D_Sal", "n30d_mavg", "n30davgForecast", "LORS08_bf_rel", "LDS_LC6_1", "S_O", "All_4",
    "Sabf", "Swbf", "Swbu", "All_4andStage", "All_4andStagein", "P_AP_BF_Stg", "Logic_test_1",
    "Post_Ap_Baseflow", "Outlet1USRSplusPreAPS77bsf", "AndEstNeedsLakeWater",
    "AndLowChance61stagelessth11", "ATHCnora", "Choose_PAPEWS_1", "Choose_PAPEWS_2", "Post_AP_EWS",
    "Post_AP_Baseflow_EWS_cfs"]

  /** A column as the float64 array that holds it: a flag is stored as 1.0 or 0.0, a zone
      code or switch as its value, a number as itself, and a salinity cell may be NaN. */
  function BoolFloats(s: seq<bool>): (r: seq<Sal>)
    ensures |r| == |s| && forall k :: 0 <= k < |s| ==> r[k] == Psu(if s[k] then 1.0 else 0.0)
  {
    seq(|s|, k requires 0 <= k < |s| => Psu(if s[k] then 1.0 else 0.0))
  }

  function RealFloats(s: seq<real>): (r: seq<Sal>)
    ensures |r| == |s| && forall k :: 0 <= k < |s| ==> r[k] == Psu(s[k])
  {
    seq(|s|, k requires 0 <= k < |s| => Psu(s[k]))
  }

  function CodeFloats(s: seq<int>): (r: seq<Sal>)
    ensures |r| == |s| && forall k :: 0 <= k < |s| ==> r[k] == Psu(s[k] as real)
  {
    seq(|s|, k requires 0 <= k < |s| => Psu(s[k] as real))
  }

  /** Column `j` of the chain, as its float64 array. */
  function ColumnFloats(c: ApColumns, j: nat): seq<Sal>
    requires j < |ApColumnNames|
  {
    match j
    case 0 => BoolFloats(c.thcNormalOrAbove)
    case 1 => RealFloats(c.lakeOStageAp)
    case 2 => CodeFloats(c.lakeOScheduleZone)
    case 3 => RealFloats(c.lStgCorres)
    case 4 => BoolFloats(c.lowChanceCheck)
    case 5 => RealFloats(c.s77rsAp)
    case 6 => RealFloats(c.s77bsAp)
    case 7 => RealFloats(c.s77rsPreApS77Baseflow)
    case 8 => c.forecastDSal
    case 9 => c.n30dMavg
    case 10 => BoolFloats(c.n30davgForecast)
    case 11 => BoolFloats(c.lors08BfRel)
    case 12 => BoolFloats(c.ldsLc61)
    case 13 => CodeFloats(c.switchO)
    case 14 => BoolFloats(c.all4)
    case 15 => BoolFloats(c.sabf)
    case 16 => BoolFloats(c.swbf)
    case 17 => BoolFloats(c.swbu)
    case 18 => BoolFloats(c.all4AndStage)
    case 19 => BoolFloats(c.all4AndStageIn)
    case 20 => BoolFloats(c.pApBfStg)
    case 21 => BoolFloats(c.logicTest1)
    case 22 => RealFloats(c.postApBaseflow)
    case 23 => BoolFloats(c.s77rsPlusPreApS77Bsf)
    case 24 => BoolFloats(c.andEstNeedsLakeWater)
    case 25 => BoolFloats(c.andLowChance61)
    case 26 => BoolFloats(c.athcnora)
    case 27 => RealFloats(c.choosePapEws1)
    case 28 => RealFloats(c.choosePapEws2)
    case 29 => RealFloats(c.postApEws)
    case _ => RealFloats(c.postApBaseflowEwsCfs)
  }

  /** Every column of the zero columns is, as a float64 array, `d` zeros. */
  lemma ZeroColumnsAreFloatZeros(d: nat, j: nat)
    requires j < |ApColumnNames|
    ensures ColumnFloats(ZeroColumns(d), j) == RealFloats(seq(d, _ => 0.0))
  {
    var c := ZeroColumns(d);
    var f := ColumnFloats(c, j);
    assert |f| == d;
    forall k | 0 <= k < d
      ensures f[k] == Psu(0.0)
    {
    }
  }

  /** The read offsets of day `i` are inside every input. */
  predicate InputsCover(cfg: ApConfig, inp: ApInputs, i: nat) {
    && i < |inp.trib| && i < |inp.month| && i < |inp.lateDrySeason|
    && i < |inp.estuaryNeedsWater|
    && i + 1 < |inp.stageLo| && i + 1 < |inp.zoneCode| && i + 1 < |inp.wsm1|
    && i + 2 < |inp.wsmZone| && i + 2 < |inp.s77rs| && i + 2 < |inp.s77bs|
    && (cfg.lowChance in inp.targStg ==> i < |inp.targStg[cfg.lowChance]|)
  }

  /** The inputs cover a run of `d` days: per-day columns have `d` slots, per-step
      columns (other than the stage, which the run computes) have `d + 1`. */
  predicate InputsSized(cfg: ApConfig, inp: ApInputs, d: nat) {
    && |inp.trib| >= d && |inp.month| >= d && |inp.lateDrySeason| >= d
    && |inp.estuaryNeedsWater| >= d
    && |inp.zoneCode| >= d + 1 && |inp.wsm1| >= d + 1 && |inp.wsmZone| >= d + 1
    && |inp.s77rs| >= d + 1 && |inp.s77bs| >= d + 1
    && (cfg.lowChance in inp.targStg ==> |inp.targStg[cfg.lowChance]| >= d)
  }

  /** Day `i` of a `d`-day run reads inside the inputs when it is at least two days from
      the end and the stage column has a slot per step. */
  lemma SizedInputsCoverDay(cfg: ApConfig, inp: ApInputs, d: nat, i: nat)
    requires InputsSized(cfg, inp, d) && |inp.stageLo| >= d + 1 && i + 2 <= d
    ensures InputsCover(cfg, inp, i)
  {
  }

  /** `s` and `t` have the same length and differ at most in slot `i`. */
  predicate Agree<T(==)>(s: seq<T>, t: seq<T>, i: nat) {
    |s| == |t| && forall j :: 0 <= j < |s| && j != i ==> s[j] == t[j]
  }

  /** Every column keeps its length and every slot other than `i`. */
  predicate SameExcept(a: ApColumns, b: ApColumns, i: nat) {
    && Agree(a.thcNormalOrAbove, b.thcNormalOrAbove, i) && Agree(a.lakeOStageAp, b.lakeOStageAp, i)
    && Agree(a.lakeOScheduleZone, b.lakeOScheduleZone, i) && Agree(a.lStgCorres, b.lStgCorres, i)
    && Agree(a.lowChanceCheck, b.lowChanceCheck, i) && Agree(a.s77rsAp, b.s77rsAp, i)
    && Agree(a.s77bsAp, b.s77bsAp, i) && Agree(a.s77rsPreApS77Baseflow, b.s77rsPreApS77Baseflow, i)
    && Agree(a.forecastDSal, b.forecastDSal, i) && Agree(a.n30dMavg, b.n30dMavg, i)
    && Agree(a.n30davgForecast, b.n30davgForecast, i) && Agree(a.lors08BfRel, b.lors08BfRel, i)
    && Agree(a.ldsLc61, b.ldsLc61, i) && Agree(a.switchO, b.switchO, i) && Agree(a.all4, b.all4, i)
    && Agree(a.sabf, b.sabf, i) && Agree(a.swbf, b.swbf, i) && Agree(a.swbu, b.swbu, i)
    && Agree(a.all4AndStage, b.all4AndStage, i) && Agree(a.all4AndStageIn, b.all4AndStageIn, i)
    && Agree(a.pApBfStg, b.pApBfStg, i) && Agree(a.logicTest1, b.logicTest1, i)
    && Agree(a.postApBaseflow, b.postApBaseflow, i)
    && Agree(a.s77rsPlusPreApS77Bsf, b.s77rsPlusPreApS77Bsf, i)
    && Agree(a.andEstNeedsLakeWater, b.andEstNeedsLakeWater, i)
    && Agree(a.andLowChance61, b.andLowChance61, i) && Agree(a.athcnora, b.athcnora, i)
    && Agree(a.choosePapEws1, b.choosePapEws1, i) && Agree(a.choosePapEws2, b.choosePapEws2, i)
    && Agree(a.postApEws, b.postApEws, i) && Agree(a.postApBaseflowEwsCfs, b.postApBaseflowEwsCfs, i)
  }

  /** Columns 4-8 (target stage through the S-77 sum) are identical. */
  predicate SupplyGroupEq(a: ApColumns, b: ApColumns) {
    && a.lStgCorres == b.lStgCorres && a.lowChanceCheck == b.lowChanceCheck
    && a.s77rsAp == b.s77rsAp && a.s77bsAp == b.s77bsAp
    && a.s77rsPreApS77Baseflow == b.s77rsPreApS77Baseflow
  }

  /** Columns 9-28 (salinity forecast through the EWS cutback fraction) are identical. */
  predicate GateGroupEq(a: ApColumns, b: ApColumns) {
    && a.forecastDSal == b.forecastDSal && a.n30dMavg == b.n30dMavg
    && a.n30davgForecast == b.n30davgForecast && a.lors08BfRel == b.lors08BfRel
    && a.ldsLc61 == b.ldsLc61 && a.switchO == b.switchO && a.all4 == b.all4
    && a.sabf == b.sabf && a.swbf == b.swbf && a.swbu == b.swbu
    && a.all4AndStage == b.all4AndStage && a.all4AndStageIn == b.all4AndStageIn
    && a.pApBfStg == b.pApBfStg && a.logicTest1 == b.logicTest1
    && a.postApBaseflow == b.postApBaseflow && a.s77rsPlusPreApS77Bsf == b.s77rsPlusPreApS77Bsf
    && a.andEstNeedsLakeWater == b.andEstNeedsLakeWater && a.andLowChance61 == b.andLowChance61
    && a.athcnora == b.athcnora && a.choosePapEws1 == b.choosePapEws1
  }

  /** Columns 29-31 (EWS target, post-protocol EWS, and the sum) are identical. */
  predicate EwsGroupEq(a: ApColumns, b: ApColumns) {
    a.choosePapEws2 == b.choosePapEws2 && a.postApEws == b.postApEws
    && a.postApBaseflowEwsCfs == b.postApBaseflowEwsCfs
  }

  /** The salinity look-ahead `col[i:i+13]`: slots `i..i+12`, cut at the end of the column. */
  function SalinityWindow(col: seq<Sal>, i: nat): (w: seq<Sal>)
    requires i < |col|
    ensures 0 < |w| <= 13
    ensures |w| == if i + 13 <= |col| then 13 else |col| - i
    ensures forall k :: 0 <= k < |w| ==> w[k] == col[i + k]
  {
    if i + 13 <= |col| then col[i..i + 13] else col[i..]
  }

  /** Columns 1-3 (tributary test, stage, zone) are identical. */
  predicate HeadGroupEq(a: ApColumns, b: ApColumns) {
    a.thcNormalOrAbove == b.thcNormalOrAbove && a.lakeOStageAp == b.lakeOStageAp
    && a.lakeOScheduleZone == b.lakeOScheduleZone
  }

  lemma AgreeTrans<T>(s: seq<T>, t: seq<T>, u: seq<T>, i: nat)
    requires Agree(s, t, i) && Agree(t, u, i)
    ensures Agree(s, u, i)
  {
  }

  /** Two successive stages that each touch only slot `i` together touch only slot `i`. */
  lemma SameExceptTrans(a: ApColumns, b: ApColumns, c: ApColumns, i: nat)
    requires SameExcept(a, b, i) && SameExcept(b, c, i)
    ensures SameExcept(a, c, i)
  {
  }

  lemma SameExceptShaped(a: ApColumns, b: ApColumns, i: nat)
    requires Shaped(a) && SameExcept(a, b, i)
    ensures Shaped(b) && Days(b) == Days(a)
  {
  }

  /** Stage 1: the tributary test and the day's stage and zone, read one step ahead. */
  function WriteHead(cfg: ApConfig, i: nat, c: ApColumns, inp: ApInputs): (r: ApColumns)
    requires Shaped(c) && i < Days(c)
    requires InputsCover(cfg, inp, i)
    ensures Shaped(r) && Days(r) == Days(c) && SameExcept(c, r, i)
    ensures SupplyGroupEq(c, r) && GateGroupEq(c, r) && EwsGroupEq(c, r)
    ensures r.thcNormalOrAbove[i] <==> inp.trib[i] > cfg.thcThreshold
    ensures r.lakeOStageAp[i] == inp.stageLo[i + 1]
    ensures r.lakeOScheduleZone[i] == inp.zoneCode[i + 1]
  {
    var thc := ThcClassNormalOrAbove(inp.trib[i], cfg.thcThreshold);
    var c1 := c.(thcNormalOrAbove := c.thcNormalOrAbove[i := thc]);
    var c2 := c1.(lakeOStageAp := c1.lakeOStageAp[i := inp.stageLo[i + 1]]);
    c2.(lakeOScheduleZone := c2.lakeOScheduleZone[i := inp.zoneCode[i + 1]])
  }

  /** Stage 2: the low-chance test and the S-77 flows scheduled two steps ahead. */
  function WriteLowChance(cfg: ApConfig, i: nat, c: ApColumns, inp: ApInputs): (r: ApColumns)
    requires Shaped(c) && i < Days(c)
    requires InputsCover(cfg, inp, i) && cfg.lowChance in inp.targStg
    ensures Shaped(r) && Days(r) == Days(c) && SameExcept(c, r, i)
    ensures HeadGroupEq(c, r) && GateGroupEq(c, r) && EwsGroupEq(c, r)
    ensures r.lStgCorres[i] == LStgCorres(inp.month[i], inp.wsm1[i + 1], inp.targStg[cfg.lowChance][i],
                                          cfg.optLChanceLine, cfg.lowChance)
    ensures r.lowChanceCheck[i] <==> r.lakeOStageAp[i] > r.lStgCorres[i]
    ensures r.s77rsAp[i] == inp.s77rs[i + 2] && r.s77bsAp[i] == inp.s77bs[i + 2]
    ensures r.s77rsPreApS77Baseflow[i] == r.s77rsAp[i] + r.s77bsAp[i]
  {
    var corres := LStgCorres(inp.month[i], inp.wsm1[i + 1], inp.targStg[cfg.lowChance][i],
                             cfg.optLChanceLine, cfg.lowChance);
    var c4 := c.(lStgCorres := c.lStgCorres[i := corres]);
    var c5 := c4.(lowChanceCheck := c4.lowChanceCheck[i := LowChanceCheck(c4.lakeOStageAp[i], c4.lStgCorres[i])]);
    var c6 := c5.(s77rsAp := c5.s77rsAp[i := inp.s77rs[i + 2]]);
    var c7 := c6.(s77bsAp := c6.s77bsAp[i := inp.s77bs[i + 2]]);
    c7.(s77rsPreApS77Baseflow := c7.s77rsPreApS77Baseflow[i := c7.s77rsAp[i] + c7.s77bsAp[i]])
  }

  /** Stage 3: the salinity cells and the "estuary needs water within two weeks" test over
      the look-ahead window, which already holds this day's freshly written cell. */
  function WriteSalinity(cfg: ApConfig, i: nat, c: ApColumns, inp: ApInputs, fds: Sal, mavg: Sal): (r: ApColumns)
    requires Shaped(c) && i < Days(c)
    requires InputsCover(cfg, inp, i)
    ensures Shaped(r) && Days(r) == Days(c) && SameExcept(c, r, i)
    ensures HeadGroupEq(c, r) && SupplyGroupEq(c, r) && EwsGroupEq(c, r)
    ensures r.ldsLc61 == c.ldsLc61 && r.switchO == c.switchO && r.all4 == c.all4
    ensures r.sabf == c.sabf && r.swbf == c.swbf && r.swbu == c.swbu
    ensures r.all4AndStage == c.all4AndStage && r.all4AndStageIn == c.all4AndStageIn
    ensures r.pApBfStg == c.pApBfStg && r.logicTest1 == c.logicTest1 && r.postApBaseflow == c.postApBaseflow
    ensures r.s77rsPlusPreApS77Bsf == c.s77rsPlusPreApS77Bsf && r.andEstNeedsLakeWater == c.andEstNeedsLakeWater
    ensures r.andLowChance61 == c.andLowChance61 && r.athcnora == c.athcnora
    ensures r.choosePapEws1 == c.choosePapEws1
    ensures r.forecastDSal[i] == fds && r.n30dMavg[i] == mavg
    ensures r.n30davgForecast[i] == N30davgForecast(inp.estuaryNeedsWater[i], SalinityWindow(r.n30dMavg, i),
                                                   cfg.optSalFcast, cfg.ceSalThreshold)
    ensures r.lors08BfRel[i] == Lors08BfRel(r.s77bsAp[i], r.n30davgForecast[i])
  {
    var c9 := c.(forecastDSal := c.forecastDSal[i := fds]);
    var c10 := c9.(n30dMavg := c9.n30dMavg[i := mavg]);
    var fcast := N30davgForecast(inp.estuaryNeedsWater[i], SalinityWindow(c10.n30dMavg, i),
                                 cfg.optSalFcast, cfg.ceSalThreshold);
    var c11 := c10.(n30davgForecast := c10.n30davgForecast[i := fcast]);
    c11.(lors08BfRel := c11.lors08BfRel[i := Lors08BfRel(c11.s77bsAp[i], c11.n30davgForecast[i])])
  }

  /** Stage 4: the late-dry-season restriction, the stage sub-bands and the post-protocol
      baseflow. */
  function WriteBaseflow(cfg: ApConfig, i: nat, c: ApColumns, inp: ApInputs): (r: ApColumns)
    requires Shaped(c) && i < Days(c)
    requires InputsCover(cfg, inp, i)
    ensures Shaped(r) && Days(r) == Days(c) && SameExcept(c, r, i)
    ensures HeadGroupEq(c, r) && SupplyGroupEq(c, r) && EwsGroupEq(c, r)
    ensures r.forecastDSal == c.forecastDSal && r.n30dMavg == c.n30dMavg
    ensures r.n30davgForecast == c.n30davgForecast && r.lors08BfRel == c.lors08BfRel
    ensures r.s77rsPlusPreApS77Bsf == c.s77rsPlusPreApS77Bsf && r.andEstNeedsLakeWater == c.andEstNeedsLakeWater
    ensures r.andLowChance61 == c.andLowChance61 && r.athcnora == c.athcnora
    ensures r.choosePapEws1 == c.choosePapEws1
    ensures r.ldsLc61[i] == LdsLc61(inp.lateDrySeason[i], r.lowChanceCheck[i], cfg.lateDrySeasonOption)
    ensures r.switchO[i] == SwitchO(r.ldsLc61[i], r.s77bsAp[i])
    ensures r.all4[i] == All4(r.lors08BfRel[i], r.ldsLc61[i])
    ensures r.sabf[i] == Sabf(r.lakeOScheduleZone[i]) && r.swbf[i] == Swbf(r.lakeOScheduleZone[i])
    ensures r.swbu[i] == Swbu(r.lakeOScheduleZone[i])
    ensures r.all4AndStage[i] == All4AndStage(r.all4[i], r.sabf[i])
    ensures r.all4AndStageIn[i] == All4AndStageIn(r.all4[i], r.sabf[i])
    ensures r.pApBfStg[i] == PApBfStg(r.lakeOScheduleZone[i], r.s77bsAp[i])
    ensures r.logicTest1[i] == LogicTest1(r.all4AndStage[i], r.pApBfStg[i], cfg.optNoApAboveBfSb)
    ensures r.postApBaseflow[i] == PostApBaseflow(r.logicTest1[i], r.s77bsAp[i], r.all4AndStageIn[i], inp.choose1)
  {
    var c13 := c.(ldsLc61 := c.ldsLc61[i := LdsLc61(inp.lateDrySeason[i], c.lowChanceCheck[i],
                                                    cfg.lateDrySeasonOption)]);
    var c14 := c13.(switchO := c13.switchO[i := SwitchO(c13.ldsLc61[i], c13.s77bsAp[i])]);
    var c15 := c14.(all4 := c14.all4[i := All4(c14.lors08BfRel[i], c14.ldsLc61[i])]);
    var c16 := c15.(sabf := c15.sabf[i := Sabf(c15.lakeOScheduleZone[i])]);
    var c17 := c16.(swbf := c16.swbf[i := Swbf(c16.lakeOScheduleZone[i])]);
    var c18 := c17.(swbu := c17.swbu[i := Swbu(c17.lakeOScheduleZone[i])]);
    var c19 := c18.(all4AndStage := c18.all4AndStage[i := All4AndStage(c18.all4[i], c18.sabf[i])]);
    var c20 := c19.(all4AndStageIn := c19.all4AndStageIn[i := All4AndStageIn(c19.all4[i], c19.sabf[i])]);
    var c21 := c20.(pApBfStg := c20.pApBfStg[i := PApBfStg(c20.lakeOScheduleZone[i], c20.s77bsAp[i])]);
    var c22 := c21.(logicTest1 := c21.logicTest1[i := LogicTest1(c21.all4AndStage[i], c21.pApBfStg[i],
                                                                 cfg.optNoApAboveBfSb)]);
    c22.(postApBaseflow := c22.postApBaseflow[i := PostApBaseflow(c22.logicTest1[i], c22.s77bsAp[i],
                                                                  c22.all4AndStageIn[i], inp.choose1)])
  }

  /** Stage 5: the EWS gates and the zone's cutback fraction. */
  function WriteEwsGates(cfg: ApConfig, i: nat, c: ApColumns, inp: ApInputs): (r: ApColumns)
    requires Shaped(c) && i < Days(c)
    requires InputsCover(cfg, inp, i)
    ensures Shaped(r) && Days(r) == Days(c) && SameExcept(c, r, i)
    ensures HeadGroupEq(c, r) && SupplyGroupEq(c, r) && EwsGroupEq(c, r)
    ensures r.forecastDSal == c.forecastDSal && r.n30dMavg == c.n30dMavg
    ensures r.n30davgForecast == c.n30davgForecast && r.lors08BfRel == c.lors08BfRel
    ensures r.ldsLc61 == c.ldsLc61 && r.switchO == c.switchO && r.all4 == c.all4
    ensures r.sabf == c.sabf && r.swbf == c.swbf && r.swbu == c.swbu
    ensures r.all4AndStage == c.all4AndStage && r.all4AndStageIn == c.all4AndStageIn
    ensures r.pApBfStg == c.pApBfStg && r.logicTest1 == c.logicTest1 && r.postApBaseflow == c.postApBaseflow
    ensures r.s77rsPlusPreApS77Bsf[i] == S77RsPlusPreApS77Bsf(r.s77rsPreApS77Baseflow[i], r.lakeOScheduleZone[i],
                                                              cfg.optCeEwsLowsm)
    ensures r.andEstNeedsLakeWater[i] == AndEstNeedsLakeWater(r.n30davgForecast[i], r.s77rsPlusPreApS77Bsf[i])
    ensures r.andLowChance61[i] == AndLowChance61StageLessTh11(r.ldsLc61[i], r.andEstNeedsLakeWater[i])
    ensures r.athcnora[i] == Athcnora(r.andLowChance61[i], r.thcNormalOrAbove[i], inp.lateDrySeason[i],
                                      cfg.optThcBypLateDs)
    ensures r.choosePapEws1[i] == ChoosePapEws1(inp.wsmZone[i + 2], cfg.apcb1, cfg.apcb2, cfg.apcb3, cfg.apcb4)
  {
    var c24 := c.(s77rsPlusPreApS77Bsf := c.s77rsPlusPreApS77Bsf[i :=
                    S77RsPlusPreApS77Bsf(c.s77rsPreApS77Baseflow[i], c.lakeOScheduleZone[i], cfg.optCeEwsLowsm)]);
    var c25 := c24.(andEstNeedsLakeWater := c24.andEstNeedsLakeWater[i :=
                      AndEstNeedsLakeWater(c24.n30davgForecast[i], c24.s77rsPlusPreApS77Bsf[i])]);
    var c26 := c25.(andLowChance61 := c25.andLowChance61[i :=
                      AndLowChance61StageLessTh11(c25.ldsLc61[i], c25.andEstNeedsLakeWater[i])]);
    var c27 := c26.(athcnora := c26.athcnora[i := Athcnora(c26.andLowChance61[i], c26.thcNormalOrAbove[i],
                                                           inp.lateDrySeason[i], cfg.optThcBypLateDs)]);
    c27.(choosePapEws1 := c27.choosePapEws1[i := ChoosePapEws1(inp.wsmZone[i + 2], cfg.apcb1, cfg.apcb2,
                                                               cfg.apcb3, cfg.apcb4)])
  }

  /** Stage 6: the EWS target, the post-protocol EWS and the combined flow. */
  function WriteEws(cfg: ApConfig, i: nat, c: ApColumns, inp: ApInputs, choice2: real): (r: ApColumns)
    requires Shaped(c) && i < Days(c)
    requires InputsCover(cfg, inp, i)
    ensures Shaped(r) && Days(r) == Days(c) && SameExcept(c, r, i)
    ensures HeadGroupEq(c, r) && SupplyGroupEq(c, r) && GateGroupEq(c, r)
    ensures r.choosePapEws2[i] == choice2
    ensures r.postApEws[i] == PostApEws(r.athcnora[i], inp.wsmZone[i + 2], r.choosePapEws1[i],
                                        r.choosePapEws2[i], cfg.calEstEws)
    ensures r.postApBaseflowEwsCfs[i] == r.postApBaseflow[i] + r.postApEws[i]
  {
    var c29 := c.(choosePapEws2 := c.choosePapEws2[i := choice2]);
    var c30 := c29.(postApEws := c29.postApEws[i := PostApEws(c29.athcnora[i], inp.wsmZone[i + 2],
                                                              c29.choosePapEws1[i], c29.choosePapEws2[i],
                                                              cfg.calEstEws)]);
    c30.(postApBaseflowEwsCfs := c30.postApBaseflowEwsCfs[i := c30.postApBaseflow[i] + c30.postApEws[i]])
  }

  /** The one-day rule chain: the six stages in order, stopping where the original raises. */
  function ThcClass(cfg: ApConfig, i: nat, c: ApColumns, inp: ApInputs): (r: ChainOutcome)
    requires Shaped(c) && i < Days(c)
    requires InputsCover(cfg, inp, i)
    ensures r.Completed? <==>
              cfg.lowChance in inp.targStg && cfg.optSalFcast == 3 && cfg.optCeEwsLowsm in {0, 1, 2}
    ensures Shaped(r.cols) && Days(r.cols) == Days(c) && SameExcept(c, r.cols, i)
    ensures r.Completed? ==> r.out == ThcOut(r.cols.postApEws[i], r.cols.postApBaseflow[i])
  {
    var h := WriteHead(cfg, i, c, inp);
    if cfg.lowChance !in inp.targStg then Aborted(h, MissingTargetStage(cfg.lowChance))
    else
      var lc := WriteLowChance(cfg, i, h, inp);
      SameExceptTrans(c, h, lc, i);
      match ForecastDSal(cfg.optSalFcast)
      case Fail(e1) => Aborted(lc, e1)
      case Ok(fds) =>
        // the moving-average cell is the same stub under the same option, so it is bound too
        var mavg := ForecastDSal(cfg.optSalFcast).value;
        var sal := WriteSalinity(cfg, i, lc, inp, fds, mavg);
        var bf := WriteBaseflow(cfg, i, sal, inp);
        var eg := WriteEwsGates(cfg, i, bf, inp);
        SameExceptTrans(c, lc, sal, i);
        SameExceptTrans(c, sal, bf, i);
        SameExceptTrans(c, bf, eg, i);
        match ChoosePapEws2(cfg.optCeEwsLowsm, cfg.calEstEws)
        case Fail(e3) => Aborted(eg, e3)
        case Ok(choice2) =>
          var ews := WriteEws(cfg, i, eg, inp, choice2);
          SameExceptTrans(c, eg, ews, i);
          Completed(ews, ThcOut(ews.postApEws[i], ews.postApBaseflow[i]))
  }

  /** Every outcome holds the tributary test and the stage and zone read one step ahead. */
  lemma ChainHeadReads(cfg: ApConfig, i: nat, c: ApColumns, inp: ApInputs)
    requires Shaped(c) && i < Days(c) && InputsCover(cfg, inp, i)
    ensures var r := ThcClass(cfg, i, c, inp);
            && (r.cols.thcNormalOrAbove[i] <==> inp.trib[i] > cfg.thcThreshold)
            && r.cols.lakeOStageAp[i] == inp.stageLo[i + 1]
            && r.cols.lakeOScheduleZone[i] == inp.zoneCode[i + 1]
  {
    var h := WriteHead(cfg, i, c, inp);
    if cfg.lowChance in inp.targStg {
      var lc := WriteLowChance(cfg, i, h, inp);
      if cfg.optSalFcast == 3 {
        var sal := WriteSalinity(cfg, i, lc, inp, ForecastDSal(3).value, ForecastDSal(3).value);
        var bf := WriteBaseflow(cfg, i, sal, inp);
        var eg := WriteEwsGates(cfg, i, bf, inp);
        assert HeadGroupEq(h, eg);
        if cfg.optCeEwsLowsm in {0, 1, 2} {
          var ews := WriteEws(cfg, i, eg, inp, ChoosePapEws2(cfg.optCeEwsLowsm, cfg.calEstEws).value);
          assert ThcClass(cfg, i, c, inp).cols == ews;
        }
      }
    }
  }

  /** Where the chain stops decides which column groups it never touched. */
  lemma ChainAbortFraming(cfg: ApConfig, i: nat, c: ApColumns, inp: ApInputs)
    requires Shaped(c) && i < Days(c) && InputsCover(cfg, inp, i)
    ensures var r := ThcClass(cfg, i, c, inp);
            && (r.Aborted? && r.err.MissingTargetStage? ==>
                  r.err.percent == cfg.lowChance && SupplyGroupEq(c, r.cols) && GateGroupEq(c, r.cols)
                  && EwsGroupEq(c, r.cols))
            && (r.Aborted? && r.err.UnboundForecast? ==>
                  r.err.option == cfg.optSalFcast && GateGroupEq(c, r.cols) && EwsGroupEq(c, r.cols))
            && (r.Aborted? && r.err.UnboundEwsChoice? ==>
                  r.err.option == cfg.optCeEwsLowsm && EwsGroupEq(c, r.cols))
  {
    var h := WriteHead(cfg, i, c, inp);
    if cfg.lowChance !in inp.targStg {
      assert ThcClass(cfg, i, c, inp) == Aborted(h, MissingTargetStage(cfg.lowChance));
    } else {
      var lc := WriteLowChance(cfg, i, h, inp);
      if cfg.optSalFcast != 3 {
        assert ThcClass(cfg, i, c, inp) == Aborted(lc, UnboundForecast(cfg.optSalFcast));
      } else {
        var sal := WriteSalinity(cfg, i, lc, inp, ForecastDSal(3).value, ForecastDSal(3).value);
        var bf := WriteBaseflow(cfg, i, sal, inp);
        var eg := WriteEwsGates(cfg, i, bf, inp);
        assert EwsGroupEq(c, eg);
        if cfg.optCeEwsLowsm !in {0, 1, 2} {
          assert ThcClass(cfg, i, c, inp) == Aborted(eg, UnboundEwsChoice(cfg.optCeEwsLowsm));
        }
      }
    }
  }

  /** Once the target-stage curve is found, the S-77 flows are read two steps ahead and summed. */
  lemma ChainSupplyReads(cfg: ApConfig, i: nat, c: ApColumns, inp: ApInputs)
    requires Shaped(c) && i < Days(c) && InputsCover(cfg, inp, i)
    requires cfg.lowChance in inp.targStg
    ensures var r := ThcClass(cfg, i, c, inp);
            && r.cols.s77rsAp[i] == inp.s77rs[i + 2] && r.cols.s77bsAp[i] == inp.s77bs[i + 2]
            && r.cols.s77rsPreApS77Baseflow[i] == inp.s77rs[i + 2] + inp.s77bs[i + 2]
  {
    var lc := WriteLowChance(cfg, i, WriteHead(cfg, i, c, inp), inp);
    if cfg.optSalFcast == 3 {
      var sal := WriteSalinity(cfg, i, lc, inp, ForecastDSal(3).value, ForecastDSal(3).value);
      var eg := WriteEwsGates(cfg, i, WriteBaseflow(cfg, i, sal, inp), inp);
      assert SupplyGroupEq(lc, eg);
      if cfg.optCeEwsLowsm in {0, 1, 2} {
        var ews := WriteEws(cfg, i, eg, inp, ChoosePapEws2(cfg.optCeEwsLowsm, cfg.calEstEws).value);
        assert ThcClass(cfg, i, c, inp).cols == ews;
      }
    }
  }

  /** A completed chain ran under salinity option 3, so the forecast is the external flag,
      and the baseflow and EWS it returns are the gated values of that day's inputs: the EWS
      gate is applied to the day's forecast flag, S-77 flows, zone and tributary reading. */
  lemma ChainCompletedValues(cfg: ApConfig, i: nat, c: ApColumns, inp: ApInputs)
    requires Shaped(c) && i < Days(c) && InputsCover(cfg, inp, i)
    ensures var r := ThcClass(cfg, i, c, inp);
            var gate := Athcnora(AndLowChance61StageLessTh11(
                                   r.cols.ldsLc61[i],
                                   AndEstNeedsLakeWater(inp.estuaryNeedsWater[i],
                                                        S77RsPlusPreApS77Bsf(inp.s77rs[i + 2] + inp.s77bs[i + 2],
                                                                             inp.zoneCode[i + 1], cfg.optCeEwsLowsm))),
                                 ThcClassNormalOrAbove(inp.trib[i], cfg.thcThreshold),
                                 inp.lateDrySeason[i], cfg.optThcBypLateDs);
            r.Completed? ==>
              && r.cols.n30davgForecast[i] == inp.estuaryNeedsWater[i]
              && r.cols.ldsLc61[i] == LdsLc61(inp.lateDrySeason[i],
                                              inp.stageLo[i + 1] > LStgCorres(inp.month[i], inp.wsm1[i + 1],
                                                                              inp.targStg[cfg.lowChance][i],
                                                                              cfg.optLChanceLine, cfg.lowChance),
                                              cfg.lateDrySeasonOption)
              && r.out.postApBaseflow == GatedBaseflow(inp.s77bs[i + 2], inp.estuaryNeedsWater[i], r.cols.ldsLc61[i],
                                                       inp.zoneCode[i + 1], cfg.optNoApAboveBfSb, inp.choose1)
              && r.cols.athcnora[i] == gate
              && r.out.postApEws == PostApEws(gate, inp.wsmZone[i + 2],
                                              ChoosePapEws1(inp.wsmZone[i + 2], cfg.apcb1, cfg.apcb2, cfg.apcb3, cfg.apcb4),
                                              ChoosePapEws2(cfg.optCeEwsLowsm, cfg.calEstEws).value, cfg.calEstEws)
              && r.cols.postApBaseflowEwsCfs[i] == r.out.postApBaseflow + r.out.postApEws
  {
    if cfg.lowChance in inp.targStg && cfg.optSalFcast == 3 && cfg.optCeEwsLowsm in {0, 1, 2} {
      var lc := WriteLowChance(cfg, i, WriteHead(cfg, i, c, inp), inp);
      var sal := WriteSalinity(cfg, i, lc, inp, ForecastDSal(3).value, ForecastDSal(3).value);
      var bf := WriteBaseflow(cfg, i, sal, inp);
      var eg := WriteEwsGates(cfg, i, bf, inp);
      var ews := WriteEws(cfg, i, eg, inp, ChoosePapEws2(cfg.optCeEwsLowsm, cfg.calEstEws).value);
      assert ThcClass(cfg, i, c, inp) == Completed(ews, ThcOut(ews.postApEws[i], ews.postApBaseflow[i]));
    }
  }

  /** The chain's baseflow never exceeds the scheduled S-77 baseflow, is zero when none is
      scheduled, and the EWS is zero whenever the EWS gate is shut. */
  lemma ChainReleaseBounds(cfg: ApConfig, i: nat, c: ApColumns, inp: ApInputs)
    requires Shaped(c) && i < Days(c) && InputsCover(cfg, inp, i)
    ensures var r := ThcClass(cfg, i, c, inp);
            r.Completed? ==>
              && (inp.s77bs[i + 2] >= 0.0 && inp.choose1 >= 0.0 ==> 0.0 <= r.out.postApBaseflow <= inp.s77bs[i + 2])
              && (inp.s77bs[i + 2] <= 0.0 ==> r.out.postApBaseflow == 0.0)
              && (!r.cols.athcnora[i] ==> r.out.postApEws == 0.0)
  {
    var r := ThcClass(cfg, i, c, inp);
    if r.Completed? {
      var lds := r.cols.ldsLc61[i];
      var s77bs := inp.s77bs[i + 2];
      var fcast := inp.estuaryNeedsWater[i];
      var zone := inp.zoneCode[i + 1];
      if s77bs <= 0.0 {
        NoScheduledBaseflowGivesZero(s77bs, fcast, lds, zone, cfg.optNoApAboveBfSb, inp.choose1);
      }
    }
  }
}
